=== FILE: README.md ===
# Bytecode compiler and stack machine

A Dafny model of the bytecode pipeline of a small Go interpreter.

**Compiler.** The compiler walks a syntax tree in post-order. It appends
each integer literal to a constant pool and emits one `OpConstant <index>`
for it. For every `+` node it emits `OpAdd` after both operands, and any
other operator is rejected with `unknown operator <op>`.

**Virtual machine.** The machine loads the bytecode and runs a
fetch-decode-execute loop over the byte stream. It has a 2048-slot stack and
an explicit stack pointer. A push at capacity fails with `STACK OVERFLOW`.

**Encoding.** The instruction encoding that both components share is
modelled as well: a one-byte opcode followed by big-endian operands, two
bytes for `OpConstant` and none for `OpAdd`.

Modules, one per component:

- `Wrappers`: `Option` and `Result`.
- `Object`:
  - `int64` as a subset type;
  - Go's wrap-around `int64` addition (`WrapAdd`);
  - the `Integer` value.
- `Code`:
  - opcodes and their definitions;
  - `Make`;
  - `ReadUint16`;
  - the decoding the machine's loop performs (`DecodeFrom`), together with two well-formedness measures: `IndicesValid` (every constant load names a pool entry) and `StackDepth` (no addition pops an empty slot).
- `Ast`:
  - the typed syntax tree (`Program`, statements, expressions), with an `Other…` case standing for every node kind the compiler has no case for;
  - the intended meaning of addition trees: `Eval`, `Literals`, `Need` (the peak stack use).
- `Compiler`:
  - the compiler state;
  - `AddConstant`, `AddInstruction`, `Emit`;
  - the tree walk (`Compile`, as written; `CompileChecked`, which rejects unsupported kinds);
  - the expected code of addition trees and programs, with the proofs that the compiler produces it and that it is well-formed.
- `Vm`:
  - the machine state, `New`, `StackTop`, `Push`, `Pop`;
  - one step of the switch (`Step`) and the run over decoded instructions (`Exec`);
  - the byte-level loop (`Run`);
  - a reference semantics on plain value lists (`ValueRun`), proved to agree with the machine.
- `Pipeline`: the code of an addition tree or program, under the reference semantics, pushes the values the tree means.
- `EndToEnd`: a fresh compiler, then a fresh machine, then a run, then `StackTop`. This is the sequence the REPL performs for each line.

Design decisions:

- **Integer addition** wraps around modulo 2^64, as Go's `int64` does. `Ast.EvalCongruent` relates a tree's value to its mathematical sum modulo 2^64; `Ast.EvalWhenTotalFits` and `EndToEnd.InterpretSum` state the plain sum when it fits in an `int64`.
- **Panics.** The Go code panics on:
  - an out-of-range constant index;
  - a truncated operand;
  - a pop on an empty stack.

  These become preconditions (`Vm.CanStep`, `Vm.Runs`, `Vm.Runnable`), not modelled behaviour. The model proves which compiler outputs meet them. `Vm.Runnable` asks that the whole stream be free of such defects. Go panics only on a defect the loop reaches, so the model says nothing about a stream whose defect lies after a push that overflows: Go returns `STACK OVERFLOW` on it.
- **Compiler errors.** A call to the compiler returns its final state together with the error, if any. On an error the state keeps whatever was emitted before it, as the mutated Go compiler does.
- **Unsupported node kinds.** The compiler's switch has no `default` case, so these kinds compile to nothing and return no error. `Compiler.Compile` follows the code. `Compiler.CompileChecked` rejects them instead. See Findings.

## Model

| member | source | states |
|---|---|---|
| `Object.WrapAdd` | vm/vm.go:64 | the sum is congruent to `a + b` modulo 2^64, and equal to it when `a + b` fits in an `int64` |
| `Ast.EvalCongruent` | vm/vm.go:58-65 | the wrap-around value of an addition tree differs from its mathematical sum by a multiple of 2^64 |
| `Ast.EvalWhenTotalFits` | vm/vm.go:58-65 | when the mathematical sum of an addition tree fits in an `int64`, the wrap-around value equals it, even if partial sums overflow |
| `Code.Make` | compiler/compiler.go:88 | an unknown opcode encodes to no bytes; a known one to the opcode byte followed by exactly the declared operand widths |
| `Code.ReadUint16` | vm/vm.go:49 | the two bytes at the offset read as a big-endian number: the first byte times 256 plus the second |
| `Code.DecodeFrom` | vm/vm.go:40-56 | the loop decodes at least a third as many instructions as bytes remain, and at most as many; it fails only when an `OpConstant` lies within the last two bytes |
| `Code.MakeRoundTrip` | vm/vm.go:44-51 | the bytes of `Make(op, operands)` start with the opcode, and the operands read back unchanged at their declared widths when they fit |
| `Code.ConstantOperandRoundTrip` | vm/vm.go:49-51 | `Make(OpConstant, [i])` is three bytes, and `ReadUint16` at offset 1 gives `i mod 2^16`, which is `i` exactly for `i` in [0, 65535] |
| `Code.DecodeMakeConstant` | compiler/compiler.go:65 | the fetch loop decodes an emitted `OpConstant` as one constant load of the index modulo 2^16 |
| `Code.DecodeMakeAdd` | compiler/compiler.go:57 | the fetch loop decodes an emitted `OpAdd` as one addition |
| `Code.DecodeAppend` | vm/vm.go:40-51 | the loop's decoding of a concatenated stream is the concatenation of the two decodings: instructions never straddle an emitted boundary |
| `Compiler.New` | compiler/compiler.go:21-26 | a fresh compiler has an empty stream and an empty pool, so its state is a prefix of every compiler state |
| `Compiler.AddConstant` | compiler/compiler.go:79-84 | the pool grows by exactly one entry, which holds `obj`; earlier entries are unchanged; the returned index is the new length minus one; the stream is untouched |
| `Compiler.AddInstruction` | compiler/compiler.go:93-97 | returns the stream length before the append; the stream grows by exactly the given bytes; the old prefix is unchanged; the pool is untouched |
| `Compiler.Emit` | compiler/compiler.go:87-91 | returns the start offset of the new instruction; the stream becomes the old stream followed by `Make(op, operands)`; the pool is untouched |
| `Compiler.BytecodeOf` | compiler/compiler.go:72-77 | the bytecode hands over the compiler's stream and pool unchanged: the compiler state can be rebuilt from it exactly |
| `Compiler.EmitReadsBack` | compiler/compiler.go:86-91 | at the returned offset the stream holds `op`, and its operands read back unchanged |
| `Compiler.Compile` | compiler/compiler.go:28-70 | the compiler as written only appends to the stream and the pool, accepts every node made of addition trees, and reports only `unknown operator <op>` with `op` other than `+` |
| `Compiler.CompileExpression` | compiler/compiler.go:44-65 | an addition tree compiles without error; any error names an operator other than `+`, or, from the stricter compiler only, an unsupported kind |
| `Compiler.CompileStatement` | compiler/compiler.go:38-42 | an expression statement over an addition tree compiles without error; any error names an operator other than `+`, or, from the stricter compiler only, an unsupported kind; a statement kind without a case emits nothing, and is an error only for the stricter compiler |
| `Compiler.CompileStatements` | compiler/compiler.go:30-36 | a program of addition-tree statements compiles without error; any error is one of the messages above |
| `Compiler.CompileChecked` | compiler/compiler.go:28-70 | the stricter compiler only appends, and reports an error exactly when the node is not made of addition trees; its errors name a bad operator or an unsupported kind |
| `Compiler.StatementsExtend` | compiler/compiler.go:30-36 | compiling a statement list only appends to the stream and the pool |
| `Compiler.CompileLiteral` | compiler/compiler.go:63-65 | a literal appends one pool entry holding its value, plus one `OpConstant` whose operand is that entry's index |
| `Compiler.AsWrittenAccepts` | compiler/compiler.go:44-67 | the compiler as written accepts an expression exactly when its every operator is `+`: any other operator is rejected wherever it sits, and kinds without a case never cause an error |
| `Compiler.AsWrittenAcceptsNode` | compiler/compiler.go:28-70 | for any node, the compiler as written reports an error exactly when an operator other than `+` occurs in it |
| `Compiler.CompileAdditionTree` | compiler/compiler.go:44-65 | an addition tree compiles without error to its post-order code: left code, right code, `OpAdd`; its literals are appended to the pool in order, each as a new entry |
| `Compiler.UnknownOperatorAfterOperands` | compiler/compiler.go:55-60 | an operator other than `+` is reported only after both operands compiled without error, with the state those left; the operands are any the compiler accepts: any `+`-only expression as written, including skipped kinds such as `(X + 1) - 2`, and addition trees for the stricter compiler |
| `Compiler.StatementsInOrder` | compiler/compiler.go:30-36 | statements compile in order; the first error is the result, and the later statements are never compiled |
| `Compiler.CompileAdditionProgram` | compiler/compiler.go:30-42 | a program of addition-tree statements compiles without error to the concatenation of each statement's expected code, with all its literals in order |
| `Compiler.UnhandledStatementsIgnored` | compiler/compiler.go:29-67 | the compiler as written ignores statement kinds without a case: removing them changes neither the code, nor the pool, nor the error |
| `Compiler.CheckedAcceptsAdditionTrees` | compiler/compiler.go:44-65 | the stricter compiler accepts an expression if and only if it is a tree of literals joined by `+` |
| `Compiler.CheckedAcceptsAdditionPrograms` | compiler/compiler.go:30-42 | the stricter compiler accepts a program if and only if every statement is an expression statement over such a tree |
| `Compiler.CompileIndicesValid` | compiler/compiler.go:63-65 | for any node, with or without an error, the emitted stream decodes completely and every `OpConstant` operand is below the final pool length |
| `Compiler.ExpectedCodeShape` | compiler/compiler.go:44-65 | the code of an addition tree decodes completely, loads only entries below `k + |Literals(e)|` and, while that bound is at most 65536, none below `k`, so only the tree's own entries; it never pops an empty slot and leaves exactly one more value on the stack |
| `Compiler.ExpectedProgramShape` | compiler/compiler.go:30-36 | the code of an addition program decodes completely, loads only entries below `k + |ProgramLiterals(ss)|` and, while that bound is at most 65536, none below `k`, so only the program's own entries; it never pops an empty slot and leaves one value per statement |
| `Vm.New` | vm/vm.go:20-28 | a fresh machine has pointer 0, a stack of capacity 2048 with every slot empty, and the bytecode's pool and stream |
| `Vm.StackTop` | vm/vm.go:31-37 | on a valid machine the result is empty exactly when the stack pointer is 0 |
| `Vm.Push` | vm/vm.go:72-81 | fails with `STACK OVERFLOW` exactly when the pointer is at 2048; otherwise it stores the value at the pointer, increments the pointer, and touches no other slot |
| `Vm.Pop` | vm/vm.go:83-88 | returns what `StackTop` shows, decrements the pointer, and leaves the slots, pool and stream alone |
| `Vm.PushValid` | vm/vm.go:72-81 | a push below capacity keeps the invariant: pointer within 0..2048, and every slot below it filled |
| `Vm.PopAfterPush` | vm/vm.go:72-88 | popping right after a push returns the pushed value, and the machine is as before except for the written slot |
| `Vm.Step` | vm/vm.go:46-66 | a constant load pushes the named pool entry, or fails only at capacity; an addition never fails and replaces the top two values by their wrap-around sum; other opcodes change nothing |
| `Vm.Exec` | vm/vm.go:39-70 | the run keeps the invariant and the pool; a clean finish ends at the depth the code predicts; the only error is a stack overflow |
| `Vm.Run` | vm/vm.go:39-70 | the byte-level loop, advancing 3 bytes past `OpConstant` and 1 past any other byte, computes the same outcome as running the decoded instructions |
| `Vm.ExecAppend` | vm/vm.go:39-57 | running `a + b` runs `a`; the first push error ends the run there, otherwise `b` continues from `a`'s final state |
| `Vm.ExecAdd` | vm/vm.go:58-65 | an addition with two values on the stack cannot fail, and replaces them by their sum |
| `Vm.ExecAgrees` | vm/vm.go:39-70 | from a stack holding `values`, the machine fails exactly when the value-list semantics fails, with the same error; otherwise its stack holds exactly the values that semantics computes |
| `Pipeline.ValueRunInfix` | vm/vm.go:58-65 | code pushing `a`, then code pushing `b`, then `OpAdd` pushes `WrapAdd(a, b)`; its peak need is the larger of the left operand's peak and one more than the right operand's peak, since `a` stays on the stack while `b` is computed |
| `Pipeline.ValueRunTree` | compiler/compiler.go:44-65 | the code of an addition tree appends the tree's value when its peak need fits in the stack, and fails with a stack overflow otherwise |
| `Pipeline.ValueRunProgram` | compiler/compiler.go:30-36 | the code of an addition program appends each statement's value in order when its peak need fits, and fails with a stack overflow otherwise |
| `EndToEnd.RunBytecode` | repl/repl.go:52-58 | loading bytecode into a fresh machine and running it never gives a compile error, and the only run error is a stack overflow |
| `EndToEnd.Interpret` | repl/repl.go:46-58 | a compile error is reported exactly when the compiler returns one, with its message; the only run error is a stack overflow |
| `EndToEnd.CompileAndRun` | repl/repl.go:46-58 | the sequence with the byte-level `Run` gives the same reply as `Interpret`; for an addition program, that reply is the expected one |
| `EndToEnd.RunAdditionProgram` | vm/vm.go:39-70 | the compiled code of an addition program runs without panic and leaves the last statement's value on top, or overflows exactly when the program's peak need exceeds 2048 |
| `EndToEnd.InterpretAdditionProgram` | repl/repl.go:46-58 | compiling and running an addition program cannot panic, and gives the last statement's value or a stack overflow, as its peak need dictates |
| `EndToEnd.InterpretSum` | vm/vm.go:58-65 | compiling and running `a + b` leaves `Integer(WrapAdd(a, b))` on top, which is `Integer(a + b)` when the sum fits in an `int64` |
| `EndToEnd.OnePlusTwo` | compiler/compiler_test.go:21-28 | `1 + 2` compiles to constants `[1, 2]` and `Make(OpConstant, 0)`, `Make(OpConstant, 1)`, `Make(OpAdd)`, and runs to 3 |
| `EndToEnd.OneMinusTwo` | compiler/compiler.go:55-60 | `1 - 2` returns `unknown operator -` after both literals are in the pool and both loads are in the stream |
| `EndToEnd.OnePlusOne` | compiler/compiler.go:79-84 | `1 + 1` yields two distinct pool entries, both holding 1: the pool is never deduplicated |
| `EndToEnd.SkippedOperandPanics` | compiler/compiler.go:29-69 | as written, an addition whose left operand has no case compiles without error to `OpConstant 0`, `OpAdd`, code that would pop an empty stack; the stricter compiler rejects it |
| `EndToEnd.ExpressionNeverPanics` | compiler/compiler.go:38-65 | for an expression, the stricter compiler either errs or emits code the machine runs without panic |
| `EndToEnd.CheckedNeverPanics` | compiler/compiler.go:28-70 | for any node, the stricter compiler either errs or emits code the machine runs without panic |
| `EndToEnd.InterpretChecked` | repl/repl.go:46-58 | defined for every node: a compile error is reported exactly when the stricter compiler returns one; the only run error is a stack overflow |
| `EndToEnd.InterpretCheckedProgram` | compiler/compiler.go:29-69 | the stricter pipeline rejects exactly the programs that are not addition programs, and gives every addition program its expected reply |
| `EndToEnd.CheckedAgreesOnAdditionPrograms` | compiler/compiler.go:28-70 | on addition programs both compilers produce the same result, and the two pipelines give the same reply |

## Left out

- Lexer, parser and AST construction: that code is not part of this model. The AST is a datatype with the four node kinds the compiler handles, plus `OtherExpression` and `OtherStatement` for the rest.
- The `code` package's own source is not available; it is modelled from how the compiler and the machine use it:
  - one opcode byte;
  - `OpConstant` with a two-byte big-endian operand;
  - `OpAdd` without operands;
  - the two opcodes as two distinct byte values.
- Code.Make: an operand is assumed to be truncated to its width, as Go's conversion to `uint16` does. An index of 65536 or more therefore wraps.
- Disassembly and `Inspect()` formatting: diagnostics only.
- The REPL's input scanning, prompts and printing. Only its compile, load, run and `StackTop` sequence is modelled, by `EndToEnd`.
- A `Top(None)` reply is the case where the REPL would call `Inspect()` on a nil result.
- Go panics are preconditions, not modelled outcomes:
  - an out-of-range constant index;
  - a truncated operand;
  - a pop on an empty stack;
  - a failed `*object.Integer` assertion. Integers are the only value kind, so this one cannot arise.
- Compiler.Compile: its own contract states that it only appends to the stream and the pool, that every node made of addition trees compiles without error, and that its only error is `unknown operator <op>` with `op` other than `+`. It does not state which bytes and pool entries are appended. That is stated by `Compiler.CompileAdditionTree`, `Compiler.CompileAdditionProgram`, `Compiler.UnknownOperatorAfterOperands`, `Compiler.StatementsInOrder`, `Compiler.UnhandledStatementsIgnored` and `Compiler.CompileIndicesValid`; `Compiler.AsWrittenAcceptsNode` states exactly which nodes it accepts.
- Vm.Run: requires `Runnable` (the stream decodes, every index is valid, no addition pops an empty slot). On a stream with such a defect the Go loop panics when it reaches it, or returns `STACK OVERFLOW` if a push overflows first; the model covers neither.
- EndToEnd.Interpret: requires `NoDefect`, that is `Runnable` code or a compile error. The compiler as written can emit code with a defect (see Findings), and on such code the model says nothing, even where Go would stop at a stack overflow before reaching the defect.
- EndToEnd.RunAdditionProgram: requires at most 65536 literals. Beyond that, operands wrap modulo 2^16 and the code loads the wrong entries. The same bound applies to `EndToEnd.InterpretAdditionProgram`, `EndToEnd.CompileAndRun`, `EndToEnd.InterpretCheckedProgram`, `Pipeline.ValueRunTree` and `Pipeline.ValueRunProgram`.
- Vm.ValueRun: reports `MALFORMED CODE` for code the machine would panic on. The compiler never produces such code for addition programs, so no theorem depends on it.
- After an error the Go compiler keeps the partially emitted stream and pool; the model keeps them too.

## Findings

| source | as written | input that shows it | evidently intended | confidence | as-written member | corrected member |
|---|---|---|---|---|---|---|
| compiler/compiler.go:29-69 | the node switch has no `default`, so an expression kind without a case emits nothing and returns no error | a program `X + 2` where `X` is a kind without a case, for instance a prefix expression: the code is `OpConstant 0`, `OpAdd`, whose second pop reads below the stack | an unsupported node kind is a compile error, so the machine never receives code it cannot run | not executed | `EndToEnd.SkippedOperandPanics` | `EndToEnd.CheckedNeverPanics` |

=== FILE: ast.dfy ===
/** The syntax tree the compiler consumes, typed as the front end builds it,
    and the meaning of the trees the compiler accepts. */
module Ast {
  import opened Object

  /** Expressions. `OtherExpression` stands for every expression kind the
      compiler has no case for (identifiers, prefix expressions, booleans, a
      missing expression). */
  datatype Expression =
    | InfixExpression(left: Expression, operator: string, right: Expression)
    | IntegerLiteral(value: Int64)
    | OtherExpression

  /** Statements. `OtherStatement` stands for every statement kind the
      compiler has no case for (let and return statements, blocks). */
  datatype Statement =
    | ExpressionStatement(expression: Expression)
    | OtherStatement

  datatype Program = Program(statements: seq<Statement>)

  /** Any node the compiler's entry point may be handed. */
  datatype Node =
    | ProgramNode(program: Program)
    | StatementNode(statement: Statement)
    | ExpressionNode(expression: Expression)

  /** A tree of integer literals joined by `+`: the expressions the compiler
      turns into code without error. */
  predicate AdditionTree(e: Expression) {
    match e
    case IntegerLiteral(_) => true
    case InfixExpression(l, op, r) => op == "+" && AdditionTree(l) && AdditionTree(r)
    case OtherExpression => false
  }

  /** A program whose statements are all expression statements over addition trees. */
  predicate AdditionProgram(ss: seq<Statement>) {
    forall i :: 0 <= i < |ss| ==> ss[i].ExpressionStatement? && AdditionTree(ss[i].expression)
  }

  /** A node made only of addition trees: the nodes the compiler accepts
      whichever way it treats kinds without a case. */
  predicate AdditionNode(n: Node) {
    match n
    case ProgramNode(p) => AdditionProgram(p.statements)
    case StatementNode(s) => s.ExpressionStatement? && AdditionTree(s.expression)
    case ExpressionNode(e) => AdditionTree(e)
  }

  /** An expression whose every operator is `+`. Kinds without a case may
      appear anywhere: the compiler as written skips them. */
  predicate PlusOnly(e: Expression) {
    match e
    case IntegerLiteral(_) => true
    case InfixExpression(l, op, r) => op == "+" && PlusOnly(l) && PlusOnly(r)
    case OtherExpression => true
  }

  /** A statement whose expression, if it has one, is `PlusOnly`. */
  predicate PlusOnlyStatement(s: Statement) {
    s.ExpressionStatement? ==> PlusOnly(s.expression)
  }

  /** A node in which every operator is `+`. */
  predicate PlusOnlyNode(n: Node) {
    match n
    case ProgramNode(p) => forall i :: 0 <= i < |p.statements| ==> PlusOnlyStatement(p.statements[i])
    case StatementNode(s) => PlusOnlyStatement(s)
    case ExpressionNode(e) => PlusOnly(e)
  }

  /** The integer literals of an expression, left to right. */
  function Literals(e: Expression): seq<Value> {
    match e
    case IntegerLiteral(v) => [Integer(v)]
    case InfixExpression(l, _, r) => Literals(l) + Literals(r)
    case OtherExpression => []
  }

  /** The integer literals of the expression statements, in order. */
  function ProgramLiterals(ss: seq<Statement>): seq<Value> {
    if |ss| == 0 then []
    else
      var first := if ss[0].ExpressionStatement? then Literals(ss[0].expression) else [];
      first + ProgramLiterals(ss[1..])
  }

  /** The value of an addition tree under 64-bit wrap-around arithmetic. */
  function Eval(e: Expression): Int64
    requires AdditionTree(e)
  {
    match e
    case IntegerLiteral(v) => v
    case InfixExpression(l, _, r) => WrapAdd(Eval(l), Eval(r))
  }

  /** The value of an addition tree in unbounded arithmetic. */
  function MathSum(e: Expression): int
    requires AdditionTree(e)
  {
    match e
    case IntegerLiteral(v) => v
    case InfixExpression(l, _, r) => MathSum(l) + MathSum(r)
  }

  /** The peak number of stack slots that evaluating the tree in post-order
      occupies above the depth it starts from. */
  function Need(e: Expression): nat
    requires AdditionTree(e)
  {
    match e
    case IntegerLiteral(_) => 1
    case InfixExpression(l, _, r) =>
      var nl, nr := Need(l), 1 + Need(r);
      if nl >= nr then nl else nr
  }

  /** Wrap-around evaluation is congruent to the mathematical sum modulo
      2^64, whatever the partial sums do. */
  lemma {:induction false} EvalCongruent(e: Expression)
    requires AdditionTree(e)
    ensures (MathSum(e) - Eval(e)) % TwoTo64 == 0
    decreases e
  {
    match e
    case IntegerLiteral(_) =>
    case InfixExpression(l, _, r) =>
      EvalCongruent(l);
      EvalCongruent(r);
      var a, b := Eval(l), Eval(r);
      MultiplesAdd(MathSum(l) - a, MathSum(r) - b, a + b - WrapAdd(a, b));
  }

  lemma {:induction false} MultiplesAdd(x: int, y: int, z: int)
    requires x % TwoTo64 == 0 && y % TwoTo64 == 0 && z % TwoTo64 == 0
    ensures (x + y + z) % TwoTo64 == 0
  {
    var i, j, k := x / TwoTo64, y / TwoTo64, z / TwoTo64;
    assert x + y + z == (i + j + k) * TwoTo64;
  }

  /** Wrap-around evaluation gives the mathematical sum whenever the total
      fits in an `int64`, even if some partial sum overflows. */
  lemma {:induction false} EvalWhenTotalFits(e: Expression)
    requires AdditionTree(e) && InInt64(MathSum(e))
    ensures Eval(e) == MathSum(e)
  {
    EvalCongruent(e);
    var d := MathSum(e) - Eval(e);
    assert InInt64(Eval(e));
    assert -TwoTo64 < d < TwoTo64;
  }

  /** The peak number of stack slots an addition program occupies above
      the depth it starts from: each statement leaves its value behind, so
      statement `i` starts `i` slots higher. */
  function ProgramNeed(ss: seq<Statement>): nat
    requires AdditionProgram(ss)
    decreases |ss|
  {
    if |ss| == 0 then 0
    else
      var first, rest := Need(ss[0].expression), 1 + ProgramNeed(ss[1..]);
      if first >= rest then first else rest
  }

  /** The values of the statements of an addition program, in order. */
  function ProgramValues(ss: seq<Statement>): seq<Value>
    requires AdditionProgram(ss)
    decreases |ss|
  {
    if |ss| == 0 then []
    else
      [Integer(Eval(ss[0].expression))] + ProgramValues(ss[1..])
  }
}

=== FILE: code.dfy ===
/** The instruction encoding shared by the compiler and the virtual machine:
    one opcode byte followed by big-endian operands whose widths are fixed per
    opcode. */
module Code {
  import opened Wrappers

  newtype byte = x: int | 0 <= x < 256

  type Opcode = byte

  /** The two opcodes. Their byte values follow declaration order; nothing
      below depends on them except that they differ. */
  const OpConstant: Opcode := 0
  const OpAdd: Opcode := 1

  /** Readable name and operand widths (in bytes) of an opcode. */
  datatype Definition = Definition(name: string, operandWidths: seq<nat>)

  function Lookup(op: Opcode): Option<Definition> {
    if op == OpConstant then Some(Definition("OpConstant", [2]))
    else if op == OpAdd then Some(Definition("OpAdd", []))
    else None
  }

  function Pow256(width: nat): (r: nat)
    ensures r > 0
  {
    if width == 0 then 1 else 256 * Pow256(width - 1)
  }

  function TotalWidth(widths: seq<nat>): nat {
    if |widths| == 0 then 0 else widths[0] + TotalWidth(widths[1..])
  }

  /** The `width` bytes of `o` in big-endian order. Only the low `width` bytes
      survive, as with Go's conversion of an `int` to `uint16` before writing. */
  function PutBigEndian(o: int, width: nat): (r: seq<byte>)
    ensures |r| == width
    decreases width
  {
    if width == 0 then [] else PutBigEndian(o / 256, width - 1) + [(o % 256) as byte]
  }

  /** The unsigned number whose big-endian bytes are `bs`. */
  function ReadBigEndian(bs: seq<byte>): nat {
    if |bs| == 0 then 0 else ReadBigEndian(bs[..|bs| - 1]) * 256 + bs[|bs| - 1] as nat
  }

  lemma {:induction false} ReadBigEndianBound(bs: seq<byte>)
    ensures ReadBigEndian(bs) < Pow256(|bs|)
  {
    if |bs| > 0 {
      ReadBigEndianBound(bs[..|bs| - 1]);
    }
  }

  lemma {:induction false} DivModUnique(o: int, d: int, q: int, r: int)
    requires d > 0 && o == d * q + r && 0 <= r < d
    ensures o % d == r
  {
    var q' := o / d;
    var r' := o % d;
    assert d * (q - q') == r' - r;
    if q > q' {
      MulAtLeast(d, q - q');
    } else if q < q' {
      MulAtLeast(d, q' - q);
    }
  }

  lemma {:induction false} MulAtLeast(d: int, k: int)
    requires d > 0 && k >= 1
    ensures d * k >= d
  {
    assert d * k == d * (k - 1) + d;
    assert d * (k - 1) >= 0;
  }

  lemma {:induction false} ModOfScaled(o: int, m: nat)
    requires m > 0
    ensures ((o / 256) % m) * 256 + o % 256 == o % (256 * m)
  {
    var q, r := o / 256, o % 256;
    var q1, q2 := q % m, q / m;
    assert o == 256 * q + r;
    assert q == m * q2 + q1;
    assert o == (256 * m) * q2 + (256 * q1 + r);
    assert 256 * q1 + r < 256 * m;
    DivModUnique(o, 256 * m, q2, 256 * q1 + r);
  }

  /** Reading back a written operand gives the operand modulo 256^width. */
  lemma {:induction false} BigEndianRoundTrip(o: int, width: nat)
    ensures ReadBigEndian(PutBigEndian(o, width)) == o % Pow256(width)
    decreases width
  {
    if width > 0 {
      var bs := PutBigEndian(o, width);
      assert bs[..width - 1] == PutBigEndian(o / 256, width - 1);
      BigEndianRoundTrip(o / 256, width - 1);
      ModOfScaled(o, Pow256(width - 1));
    }
  }

  function EncodeOperands(operands: seq<int>, widths: seq<nat>): (r: seq<byte>)
    requires |operands| == |widths|
    ensures |r| == TotalWidth(widths)
  {
    if |operands| == 0 then []
    else PutBigEndian(operands[0], widths[0]) + EncodeOperands(operands[1..], widths[1..])
  }

  /** The encoding of one instruction; an undefined opcode encodes to nothing. */
  function Make(op: Opcode, operands: seq<int>): (r: seq<byte>)
    requires Lookup(op).Some? ==> |operands| == |Lookup(op).value.operandWidths|
    ensures Lookup(op).None? ==> r == []
    ensures Lookup(op).Some? ==> |r| == 1 + TotalWidth(Lookup(op).value.operandWidths) && r[0] == op
  {
    match Lookup(op)
    case None => []
    case Some(def) => [op] + EncodeOperands(operands, def.operandWidths)
  }

  /** The operands of an instruction whose operand bytes start at `offset`,
      together with the number of bytes they occupy. */
  function ReadOperands(widths: seq<nat>, ins: seq<byte>, offset: nat): (r: (seq<nat>, nat))
    requires offset + TotalWidth(widths) <= |ins|
    ensures |r.0| == |widths| && r.1 == TotalWidth(widths)
  {
    if |widths| == 0 then ([], 0)
    else
      var first := ReadBigEndian(ins[offset..offset + widths[0]]);
      var rest := ReadOperands(widths[1..], ins, offset + widths[0]);
      ([first] + rest.0, widths[0] + rest.1)
  }

  /** The two-byte big-endian operand at `offset`. */
  function ReadUint16(ins: seq<byte>, offset: nat): (r: nat)
    requires offset + 2 <= |ins|
    ensures r < 65536
    ensures r == ins[offset] as nat * 256 + ins[offset + 1] as nat
  {
    var bs := ins[offset..offset + 2];
    assert bs[..1][..0] == [] && bs[..1][0] == ins[offset] && bs[1] == ins[offset + 1];
    ReadBigEndianBound(ins[offset..offset + 2]);
    assert Pow256(2) == 65536;
    ReadBigEndian(ins[offset..offset + 2])
  }

  /** Each operand is a non-negative number below 256^width for its width. */
  predicate OperandsFit(operands: seq<int>, widths: seq<nat>)
    requires |operands| == |widths|
  {
    |operands| == 0 || (0 <= operands[0] < Pow256(widths[0]) && OperandsFit(operands[1..], widths[1..]))
  }

  lemma {:induction false} ReadEncodedOperands(operands: seq<int>, widths: seq<nat>, ins: seq<byte>, offset: nat)
    requires |operands| == |widths| && OperandsFit(operands, widths)
    requires offset + TotalWidth(widths) <= |ins|
    requires ins[offset..offset + TotalWidth(widths)] == EncodeOperands(operands, widths)
    ensures ReadOperands(widths, ins, offset) == (operands, TotalWidth(widths))
  {
    if |operands| > 0 {
      ReadHeadOperand(operands, widths, ins, offset);
      TailOperandBytes(operands, widths, ins, offset);
      ReadEncodedOperands(operands[1..], widths[1..], ins, offset + widths[0]);
      assert operands == [operands[0]] + operands[1..];
    }
  }

  /** The first operand of an encoding reads back from its leading bytes. */
  lemma {:induction false} ReadHeadOperand(operands: seq<int>, widths: seq<nat>, ins: seq<byte>, offset: nat)
    requires |operands| == |widths| > 0 && OperandsFit(operands, widths)
    requires offset + TotalWidth(widths) <= |ins|
    requires ins[offset..offset + TotalWidth(widths)] == EncodeOperands(operands, widths)
    ensures TotalWidth(widths) == widths[0] + TotalWidth(widths[1..])
    ensures ReadBigEndian(ins[offset..offset + widths[0]]) == operands[0]
  {
    var head, tail := PutBigEndian(operands[0], widths[0]), EncodeOperands(operands[1..], widths[1..]);
    EncodeSplit(operands, widths);
    SliceOfConcat(ins, offset, widths[0], TotalWidth(widths), head, tail);
    FittingRoundTrip(operands[0], widths[0]);
  }

  /** After the first operand's bytes come the encodings of the other operands. */
  lemma {:induction false} TailOperandBytes(operands: seq<int>, widths: seq<nat>, ins: seq<byte>, offset: nat)
    requires |operands| == |widths| > 0
    requires offset + TotalWidth(widths) <= |ins|
    requires ins[offset..offset + TotalWidth(widths)] == EncodeOperands(operands, widths)
    ensures TotalWidth(widths) == widths[0] + TotalWidth(widths[1..])
    ensures ins[offset + widths[0]..offset + TotalWidth(widths)] == EncodeOperands(operands[1..], widths[1..])
  {
    var head, tail := PutBigEndian(operands[0], widths[0]), EncodeOperands(operands[1..], widths[1..]);
    EncodeSplit(operands, widths);
    SliceOfConcat(ins, offset, widths[0], TotalWidth(widths), head, tail);
  }

  /** The encoding of a non-empty operand list is its head's bytes and then the tail's. */
  lemma {:induction false} EncodeSplit(operands: seq<int>, widths: seq<nat>)
    requires |operands| == |widths| > 0
    ensures TotalWidth(widths) == widths[0] + TotalWidth(widths[1..])
    ensures EncodeOperands(operands, widths) ==
            PutBigEndian(operands[0], widths[0]) + EncodeOperands(operands[1..], widths[1..])
  {
  }

  /** An operand that fits its width reads back unchanged. */
  lemma {:induction false} FittingRoundTrip(o: int, width: nat)
    requires 0 <= o < Pow256(width)
    ensures ReadBigEndian(PutBigEndian(o, width)) == o
  {
    BigEndianRoundTrip(o, width);
    DivModUnique(o, Pow256(width), 0, o);
  }

  /** A window of a slice is a window of the whole sequence. */
  lemma {:induction false} SubSlice(s: seq<byte>, p: nat, ins: seq<byte>, a: nat, b: nat)
    requires p + |ins| <= |s| && s[p..p + |ins|] == ins && a <= b <= |ins|
    ensures s[p + a..p + b] == ins[a..b]
  {
    forall i | 0 <= i < b - a
      ensures s[p + a..p + b][i] == ins[a..b][i]
    {
      assert s[p + a + i] == s[p..p + |ins|][a + i];
    }
  }

  /** A slice of length `n` holding `a + b`, where `a` has length `m`, holds
      `a` and then `b`. */
  lemma {:induction false} SliceOfConcat(s: seq<byte>, p: nat, m: nat, n: nat, a: seq<byte>, b: seq<byte>)
    requires p + n <= |s| && m == |a| && n == |a| + |b| && s[p..p + n] == a + b
    ensures s[p..p + m] == a && s[p + m..p + n] == b
  {
    assert s[p..p + m] == (a + b)[..m];
    assert s[p + m..p + n] == (a + b)[m..];
  }

  /** Encode/decode round trip: the bytes of `Make(op, operands)` start with
      `op` and read back as exactly `operands`, for operands that fit their
      declared widths. */
  lemma {:induction false} MakeRoundTrip(op: Opcode, operands: seq<int>)
    requires Lookup(op).Some?
    requires |operands| == |Lookup(op).value.operandWidths|
    requires OperandsFit(operands, Lookup(op).value.operandWidths)
    ensures var ins := Make(op, operands);
            var widths := Lookup(op).value.operandWidths;
            && |ins| == 1 + TotalWidth(widths)
            && ins[0] == op
            && ReadOperands(widths, ins, 1) == (operands, TotalWidth(widths))
  {
    var ins := Make(op, operands);
    var widths := Lookup(op).value.operandWidths;
    assert ins[1..1 + TotalWidth(widths)] == EncodeOperands(operands, widths);
    ReadEncodedOperands(operands, widths, ins, 1);
  }

  /** The `OpConstant` operand written for index `i` reads back as `i` modulo
      2^16, so exactly for `i` in [0, 65535]. */
  lemma {:induction false} ConstantOperandRoundTrip(i: int)
    ensures var ins := Make(OpConstant, [i]);
            && |ins| == 3
            && ins[0] == OpConstant
            && ReadUint16(ins, 1) == i % 65536
            && (0 <= i < 65536 ==> ReadUint16(ins, 1) == i)
  {
    var ins := Make(OpConstant, [i]);
    assert ins[1..3] == PutBigEndian(i, 2);
    BigEndianRoundTrip(i, 2);
  }

  /** An instruction as the virtual machine's fetch loop sees it: a constant
      load with its decoded operand, an addition, or any other byte, which the
      loop steps over. */
  datatype Instruction = Constant(index: nat) | Add | Unknown(op: Opcode)

  /** The instructions the fetch loop walks through from `ip` to the end of
      the stream, or None when an `OpConstant` lacks its two operand bytes. */
  function DecodeFrom(ins: seq<byte>, ip: nat): (r: Option<seq<Instruction>>)
    requires ip <= |ins|
    ensures r.Some? ==> |r.value| <= |ins| - ip <= 3 * |r.value|
    ensures r.None? ==> exists j :: ip <= j < |ins| && ins[j] == OpConstant && |ins| < j + 3
    decreases |ins| - ip
  {
    if ip == |ins| then Some([])
    else if ins[ip] == OpConstant then
      if ip + 3 <= |ins| then
        match DecodeFrom(ins, ip + 3)
        case None => None
        case Some(rest) => Some([Constant(ReadUint16(ins, ip + 1))] + rest)
      else None
    else
      var first := if ins[ip] == OpAdd then Add else Unknown(ins[ip]);
      match DecodeFrom(ins, ip + 1)
      case None => None
      case Some(rest) => Some([first] + rest)
  }

  /** Decoding looks only forward: bytes placed before a stream do not change
      how the stream decodes. */
  lemma {:induction false} DecodeShift(p: seq<byte>, q: seq<byte>, j: nat)
    requires j <= |q|
    ensures DecodeFrom(p + q, |p| + j) == DecodeFrom(q, j)
    decreases |q| - j
  {
    if j < |q| {
      assert (p + q)[|p| + j] == q[j];
      if q[j] == OpConstant {
        if j + 3 <= |q| {
          assert (p + q)[|p| + j + 1..|p| + j + 3] == q[j + 1..j + 3];
          DecodeShift(p, q, j + 3);
        }
      } else {
        DecodeShift(p, q, j + 1);
      }
    }
  }

  /** Two streams that decode completely decode, concatenated, to the
      concatenation of their instructions. */
  lemma {:induction false} DecodeAppend(a: seq<byte>, b: seq<byte>, i: nat)
    requires i <= |a| && DecodeFrom(a, i).Some? && DecodeFrom(b, 0).Some?
    ensures DecodeFrom(a + b, i) == Some(DecodeFrom(a, i).value + DecodeFrom(b, 0).value)
    decreases |a| - i
  {
    if i == |a| {
      DecodeShift(a, b, 0);
      assert DecodeFrom(a, i).value + DecodeFrom(b, 0).value == DecodeFrom(b, 0).value;
    } else {
      assert (a + b)[i] == a[i];
      var y := DecodeFrom(b, 0).value;
      if a[i] == OpConstant {
        assert (a + b)[i + 1..i + 3] == a[i + 1..i + 3];
        DecodeAppend(a, b, i + 3);
        var rest := DecodeFrom(a, i + 3).value;
        assert [Constant(ReadUint16(a, i + 1))] + (rest + y) == ([Constant(ReadUint16(a, i + 1))] + rest) + y;
      } else {
        DecodeAppend(a, b, i + 1);
        var first := if a[i] == OpAdd then Add else Unknown(a[i]);
        var rest := DecodeFrom(a, i + 1).value;
        assert [first] + (rest + y) == ([first] + rest) + y;
      }
    }
  }

  /** Streams that decode completely to `x` and `y` decode, concatenated, to `x + y`. */
  lemma {:induction false} DecodeConcat(a: seq<byte>, b: seq<byte>, x: seq<Instruction>, y: seq<Instruction>)
    requires DecodeFrom(a, 0) == Some(x) && DecodeFrom(b, 0) == Some(y)
    ensures DecodeFrom(a + b, 0) == Some(x + y)
  {
    DecodeAppend(a, b, 0);
  }

  /** `Make(OpConstant, [i])` decodes to one constant load of `i` modulo 2^16. */
  lemma {:induction false} DecodeMakeConstant(i: int)
    ensures DecodeFrom(Make(OpConstant, [i]), 0) == Some([Constant(i % 65536)])
  {
    var ins := Make(OpConstant, [i]);
    ConstantOperandRoundTrip(i);
    assert DecodeFrom(ins, 3) == Some([]);
    assert [Constant(ReadUint16(ins, 1))] + [] == [Constant(i % 65536)];
  }

  /** `Make(OpAdd, [])` decodes to one addition. */
  lemma {:induction false} DecodeMakeAdd()
    ensures DecodeFrom(Make(OpAdd, []), 0) == Some([Add])
  {
    var ins := Make(OpAdd, []);
    assert ins == [OpAdd];
    assert DecodeFrom(ins, 1) == Some([]);
    assert ins[0] != OpConstant && ins[0] == OpAdd;
    assert [Add] + [] == [Add];
  }

  /** Every constant load refers to one of the first `count` pool entries. */
  predicate IndicesValid(instrs: seq<Instruction>, count: nat) {
    forall i :: 0 <= i < |instrs| && instrs[i].Constant? ==> instrs[i].index < count
  }

  /** Every constant load of `instrs` names an entry at `low` or above. */
  predicate IndicesFrom(instrs: seq<Instruction>, low: nat) {
    forall i :: 0 <= i < |instrs| && instrs[i].Constant? ==> low <= instrs[i].index
  }

  /** The stack depth after executing `instrs` from depth `depth`, or None
      when an addition would find fewer than two values on the stack. */
  function StackDepth(instrs: seq<Instruction>, depth: int): Option<int>
    decreases |instrs|
  {
    if |instrs| == 0 then Some(depth)
    else
      match instrs[0]
      case Constant(_) => StackDepth(instrs[1..], depth + 1)
      case Add => if depth < 2 then None else StackDepth(instrs[1..], depth - 1)
      case Unknown(_) => StackDepth(instrs[1..], depth)
  }

  /** Running two instruction sequences one after the other. */
  lemma {:induction false} StackDepthAppend(x: seq<Instruction>, y: seq<Instruction>, depth: int)
    ensures StackDepth(x + y, depth) ==
            match StackDepth(x, depth)
            case None => None
            case Some(d) => StackDepth(y, d)
    decreases |x|
  {
    if |x| == 0 {
      assert x + y == y;
    } else {
      assert (x + y)[0] == x[0];
      assert (x + y)[1..] == x[1..] + y;
      match x[0]
      case Constant(_) => StackDepthAppend(x[1..], y, depth + 1);
      case Add => if depth >= 2 { StackDepthAppend(x[1..], y, depth - 1); }
      case Unknown(_) => StackDepthAppend(x[1..], y, depth);
    }
  }

  /** `code` decodes completely to `instrs`, whose constant loads stay below
      `bound` and which take the stack from `depth` to `after` values without
      an addition ever finding fewer than two. */
  predicate WellShaped(code: seq<byte>, instrs: seq<Instruction>, bound: nat, depth: int, after: int) {
    && DecodeFrom(code, 0) == Some(instrs)
    && IndicesValid(instrs, bound)
    && StackDepth(instrs, depth) == Some(after)
  }

  /** Constant loads valid against bounds `n1` and `n` stay valid, concatenated,
      against the larger. */
  lemma {:induction false} IndicesAppend(a: seq<Instruction>, b: seq<Instruction>, n1: nat, n: nat)
    requires IndicesValid(a, n1) && IndicesValid(b, n) && n1 <= n
    ensures IndicesValid(a + b, n)
  {
    forall i | 0 <= i < |a + b| && (a + b)[i].Constant? ensures (a + b)[i].index < n {
      if i >= |a| {
        assert (a + b)[i] == b[i - |a|];
      }
    }
  }

  /** Constant loads at or above `low` and `low2` stay, concatenated, at or
      above the smaller. */
  lemma {:induction false} IndicesFromAppend(a: seq<Instruction>, b: seq<Instruction>, low: nat, low2: nat)
    requires IndicesFrom(a, low) && IndicesFrom(b, low2) && low <= low2
    ensures IndicesFrom(a + b, low)
  {
    forall i | 0 <= i < |a + b| && (a + b)[i].Constant? ensures low <= (a + b)[i].index {
      if i >= |a| {
        assert (a + b)[i] == b[i - |a|];
      }
    }
  }
}

=== FILE: compiler.dfy ===
/** The bytecode compiler: a post-order walk of the syntax tree that appends
    instructions to a byte stream and literals to a constant pool. */
module Compiler {
  import opened Wrappers
  import opened Code
  import opened Object
  import opened Ast

  /** The compiler's state: the instructions emitted so far and the constant pool. */
  datatype Compiler = Compiler(instructions: seq<byte>, constants: seq<Value>)

  /** The artifact handed to the virtual machine. */
  datatype Bytecode = Bytecode(instructions: seq<byte>, constants: seq<Value>)

  /** The state after a call to the compiler and the error it returned, if any.
      On an error the state keeps whatever was emitted before the error. */
  datatype Compiled = Compiled(compiler: Compiler, err: Option<string>)

  /** A fresh compiler: an empty stream and an empty pool, and so a prefix
      of every state a compiler can reach. */
  function New(): (r: Compiler)
    ensures r.instructions == [] && r.constants == []
    ensures forall d :: Extends(r, d)
  {
    Compiler([], [])
  }

  /** The artifact carries the compiler's whole state: nothing is dropped
      or reordered on the way to the machine. */
  function BytecodeOf(c: Compiler): (b: Bytecode)
    ensures Compiler(b.instructions, b.constants) == c
  {
    Bytecode(c.instructions, c.constants)
  }

  function UnknownOperator(op: string): string {
    "unknown operator " + op
  }

  /** The errors of the stricter compiler for kinds that have no case. */
  const UnsupportedExpression := "unsupported expression"
  const UnsupportedStatement := "unsupported statement"

  /** The messages a compile error can carry: an operator other than `+`,
      named, or, from the stricter compiler only, an unsupported kind. */
  ghost predicate ErrorMessage(m: string, strict: bool) {
    || (strict && (m == UnsupportedExpression || m == UnsupportedStatement))
    || exists op :: op != "+" && m == UnknownOperator(op)
  }

  /** `d` was reached from `c` by appending only. */
  predicate Extends(c: Compiler, d: Compiler) {
    c.instructions <= d.instructions && c.constants <= d.constants
  }

  /** Appends `obj` to the pool and returns the index it now has. */
  function AddConstant(c: Compiler, obj: Value): (r: (Compiler, nat))
    ensures r.0.instructions == c.instructions
    ensures |r.0.constants| == |c.constants| + 1
    ensures r.0.constants[..|c.constants|] == c.constants
    ensures r.1 == |r.0.constants| - 1 && r.0.constants[r.1] == obj
  {
    var constants := c.constants + [obj];
    (c.(constants := constants), |constants| - 1)
  }

  /** Appends encoded bytes and returns the offset at which they start. */
  function AddInstruction(c: Compiler, ins: seq<byte>): (r: (Compiler, nat))
    ensures r.1 == |c.instructions|
    ensures |r.0.instructions| == |c.instructions| + |ins|
    ensures r.0.instructions[..r.1] == c.instructions && r.0.instructions[r.1..] == ins
    ensures r.0.constants == c.constants
  {
    (c.(instructions := c.instructions + ins), |c.instructions|)
  }

  /** Encodes one instruction, appends it and returns the offset at which it
      starts; the instruction found at that offset reads back as `op` with
      `operands`. */
  function Emit(c: Compiler, op: Opcode, operands: seq<int>): (r: (Compiler, nat))
    requires Lookup(op).Some? ==> |operands| == |Lookup(op).value.operandWidths|
    ensures r.1 == |c.instructions| && r.0.constants == c.constants
    ensures r.0.instructions == c.instructions + Make(op, operands)
  {
    AddInstruction(c, Make(op, operands))
  }

  lemma {:induction false} EmitReadsBack(c: Compiler, op: Opcode, operands: seq<int>)
    requires Lookup(op).Some? && |operands| == |Lookup(op).value.operandWidths|
    requires OperandsFit(operands, Lookup(op).value.operandWidths)
    ensures var r := Emit(c, op, operands);
            var widths := Lookup(op).value.operandWidths;
            && r.1 + 1 + TotalWidth(widths) == |r.0.instructions|
            && r.0.instructions[r.1] == op
            && ReadOperands(widths, r.0.instructions, r.1 + 1) == (operands, TotalWidth(widths))
  {
    var ins := Make(op, operands);
    var r := Emit(c, op, operands);
    MakeRoundTrip(op, operands);
    var widths := Lookup(op).value.operandWidths;
    assert r.0.instructions[r.1..r.1 + |ins|] == ins;
    ReadOperandsAt(widths, r.0.instructions, ins, r.1, 1);
  }

  /** Reading operands inside a slice equals reading them in the whole stream. */
  lemma {:induction false} ReadOperandsAt(widths: seq<nat>, s: seq<byte>, ins: seq<byte>, p: nat, off: nat)
    requires p + |ins| <= |s| && s[p..p + |ins|] == ins && off + TotalWidth(widths) <= |ins|
    ensures ReadOperands(widths, s, p + off) == ReadOperands(widths, ins, off)
    decreases |widths|
  {
    if |widths| > 0 {
      assert TotalWidth(widths) == widths[0] + TotalWidth(widths[1..]);
      SubSlice(s, p, ins, off, off + widths[0]);
      ReadOperandsAt(widths[1..], s, ins, p, off + widths[0]);
    }
  }

  /** Compiles an expression: operands first, then the operator. With
      `strict`, expression kinds without a case are rejected instead of being
      skipped. */
  function CompileExpression(c: Compiler, e: Expression, strict: bool): (r: Compiled)
    ensures AdditionTree(e) ==> r.err.None?
    ensures r.err.Some? ==> ErrorMessage(r.err.value, strict)
    decreases e
  {
    match e
    case InfixExpression(l, op, rt) =>
      var left := CompileExpression(c, l, strict);
      if left.err.Some? then left
      else
        var right := CompileExpression(left.compiler, rt, strict);
        if right.err.Some? then right
        else if op == "+" then Compiled(Emit(right.compiler, OpAdd, []).0, None)
        else Compiled(right.compiler, Some(UnknownOperator(op)))
    case IntegerLiteral(v) =>
      var (c1, index) := AddConstant(c, Integer(v));
      Compiled(Emit(c1, OpConstant, [index]).0, None)
    case OtherExpression =>
      if strict then Compiled(c, Some(UnsupportedExpression)) else Compiled(c, None)
  }

  function CompileStatement(c: Compiler, s: Statement, strict: bool): (r: Compiled)
    ensures s.ExpressionStatement? && AdditionTree(s.expression) ==> r.err.None?
    ensures r.err.Some? ==> ErrorMessage(r.err.value, strict)
    ensures s.OtherStatement? ==> r.compiler == c && (r.err.None? <==> !strict)
  {
    match s
    case ExpressionStatement(e) => CompileExpression(c, e, strict)
    case OtherStatement =>
      if strict then Compiled(c, Some(UnsupportedStatement)) else Compiled(c, None)
  }

  /** Compiles statements in order, stopping at the first error. */
  function CompileStatements(c: Compiler, ss: seq<Statement>, strict: bool): (r: Compiled)
    ensures AdditionProgram(ss) ==> r.err.None?
    ensures r.err.Some? ==> ErrorMessage(r.err.value, strict)
    decreases |ss|
  {
    if |ss| == 0 then Compiled(c, None)
    else
      var first := CompileStatement(c, ss[0], strict);
      AdditionProgramSplit(ss);
      if first.err.Some? then first
      else CompileStatements(first.compiler, ss[1..], strict)
  }

  function CompileNode(c: Compiler, n: Node, strict: bool): (r: Compiled)
    ensures Extends(c, r.compiler)
    ensures AdditionNode(n) ==> r.err.None?
    ensures r.err.Some? ==> ErrorMessage(r.err.value, strict)
  {
    match n
    case ProgramNode(p) => StatementsExtend(c, p.statements, strict); CompileStatements(c, p.statements, strict)
    case StatementNode(s) => StatementExtends(c, s, strict); CompileStatement(c, s, strict)
    case ExpressionNode(e) => ExpressionExtends(c, e, strict); CompileExpression(c, e, strict)
  }

  /** Compiling an expression only appends to the stream and the pool. */
  lemma {:induction false} ExpressionExtends(c: Compiler, e: Expression, strict: bool)
    ensures Extends(c, CompileExpression(c, e, strict).compiler)
    decreases e
  {
    match e
    case InfixExpression(l, op, rt) =>
      var left := CompileExpression(c, l, strict);
      ExpressionExtends(c, l, strict);
      var right := CompileExpression(left.compiler, rt, strict);
      ExpressionExtends(left.compiler, rt, strict);
      ExtendsTrans(c, left.compiler, right.compiler);
      var added := Emit(right.compiler, OpAdd, []).0;
      ExtendsTrans(c, right.compiler, added);
    case IntegerLiteral(v) =>
      var (c1, index) := AddConstant(c, Integer(v));
      ExtendsTrans(c, c1, Emit(c1, OpConstant, [index]).0);
    case OtherExpression =>
  }

  lemma {:induction false} ExtendsTrans(a: Compiler, b: Compiler, d: Compiler)
    requires Extends(a, b) && Extends(b, d)
    ensures Extends(a, d)
  {
  }

  /** Compiling a statement only appends to the stream and the pool. */
  lemma {:induction false} StatementExtends(c: Compiler, s: Statement, strict: bool)
    ensures Extends(c, CompileStatement(c, s, strict).compiler)
  {
    if s.ExpressionStatement? {
      ExpressionExtends(c, s.expression, strict);
    }
  }

  /** Compiling statements only appends to the stream and the pool. */
  lemma {:induction false} StatementsExtend(c: Compiler, ss: seq<Statement>, strict: bool)
    ensures Extends(c, CompileStatements(c, ss, strict).compiler)
    decreases |ss|
  {
    if |ss| > 0 {
      StatementExtends(c, ss[0], strict);
      StatementsExtend(CompileStatement(c, ss[0], strict).compiler, ss[1..], strict);
    }
  }

  /** The compiler as written: kinds without a case emit nothing and raise no error. */
  function Compile(c: Compiler, n: Node): (r: Compiled)
    ensures Extends(c, r.compiler)
    ensures AdditionNode(n) ==> r.err.None?
    ensures r.err.Some? ==> exists op :: op != "+" && r.err == Some(UnknownOperator(op))
  {
    CompileNode(c, n, false)
  }

  /** The compiler with unsupported kinds rejected as compile errors. */
  function CompileChecked(c: Compiler, n: Node): (r: Compiled)
    ensures Extends(c, r.compiler)
    ensures r.err.None? <==> AdditionNode(n)
    ensures r.err.Some? ==> ErrorMessage(r.err.value, true)
  {
    match n
    case ProgramNode(p) => CheckedAcceptsAdditionPrograms(c, p.statements); CompileNode(c, n, true)
    case StatementNode(s) =>
      if s.ExpressionStatement? then CheckedAcceptsAdditionTrees(c, s.expression); CompileNode(c, n, true)
      else CompileNode(c, n, true)
    case ExpressionNode(e) => CheckedAcceptsAdditionTrees(c, e); CompileNode(c, n, true)
  }

  // ---------------------------------------------------------------------
  // The code the compiler is expected to produce for addition trees

  /** Post-order code for an expression whose literals go to the pool
      starting at index `k`: left operand, right operand, then `OpAdd`. It is
      the compiler's output only for addition trees. */
  function ExpectedCode(e: Expression, k: nat): seq<byte> {
    match e
    case IntegerLiteral(_) => Make(OpConstant, [k])
    case InfixExpression(l, _, r) =>
      ExpectedCode(l, k) + ExpectedCode(r, k + |Literals(l)|) + Make(OpAdd, [])
    case OtherExpression => []
  }

  /** The expected code of each expression statement, in order. */
  function ExpectedProgramCode(ss: seq<Statement>, k: nat): seq<byte> {
    if |ss| == 0 then []
    else
      var e := if ss[0].ExpressionStatement? then ss[0].expression else OtherExpression;
      ExpectedCode(e, k) + ExpectedProgramCode(ss[1..], k + |Literals(e)|)
  }

  lemma {:induction false} EmitAppends(c: Compiler, op: Opcode, operands: seq<int>)
    requires Lookup(op).Some? ==> |operands| == |Lookup(op).value.operandWidths|
    ensures Emit(c, op, operands).0 == Compiler(c.instructions + Make(op, operands), c.constants)
  {
    var ins := Emit(c, op, operands).0.instructions;
    assert ins == ins[..|c.instructions|] + ins[|c.instructions|..];
  }

  /** Compiling `e` from `c` succeeds and appends exactly `code` to the
      stream and `lits` to the pool. */
  predicate CompilesTo(c: Compiler, e: Expression, strict: bool, code: seq<byte>, lits: seq<Value>) {
    CompileExpression(c, e, strict) == Compiled(Compiler(c.instructions + code, c.constants + lits), None)
  }

  /** The compiler state an expression leaves behind when every operator is
      `+`: each literal appended to the pool and loaded by `OpConstant`, each
      `+` emitted as `OpAdd` after both of its operands. */
  function TreeState(c: Compiler, e: Expression): Compiler
    decreases e
  {
    match e
    case IntegerLiteral(v) => Compiler(c.instructions + Make(OpConstant, [|c.constants|]), c.constants + [Integer(v)])
    case InfixExpression(l, _, r) =>
      var after := TreeState(TreeState(c, l), r);
      Compiler(after.instructions + Make(OpAdd, []), after.constants)
    case OtherExpression => c
  }

  /** An addition tree compiles without error, to the state `TreeState` describes. */
  lemma {:induction false} CompileToTreeState(c: Compiler, e: Expression, strict: bool)
    requires AdditionTree(e)
    ensures CompileExpression(c, e, strict) == Compiled(TreeState(c, e), None)
    decreases e
  {
    match e
    case IntegerLiteral(v) =>
      CompileLiteral(c, v, strict);
    case InfixExpression(l, op, r) =>
      CompileToTreeState(c, l, strict);
      var c1 := TreeState(c, l);
      CompileToTreeState(c1, r, strict);
      var c2 := TreeState(c1, r);
      CompileInfixUnfold(c, l, op, r, strict, c1, c2);
      EmitAppends(c2, OpAdd, []);
  }

  /** `TreeState` appends the expected code to the stream and the literals to the pool. */
  lemma {:induction false} TreeStateAppends(c: Compiler, e: Expression)
    ensures TreeState(c, e).instructions == c.instructions + ExpectedCode(e, |c.constants|)
    ensures TreeState(c, e).constants == c.constants + Literals(e)
    decreases e
  {
    match e
    case IntegerLiteral(v) =>
    case InfixExpression(l, op, r) =>
      TreeStateAppends(c, l);
      var c1 := TreeState(c, l);
      TreeStateAppends(c1, r);
      TreeStateStep(c, c1, TreeState(c1, r), ExpectedCode(l, |c.constants|), Literals(l), ExpectedCode(r, |c1.constants|), Literals(r));
    case OtherExpression =>
      assert c.instructions + [] == c.instructions && c.constants + [] == c.constants;
  }

  lemma {:induction false} TreeStateStep(c: Compiler, c1: Compiler, c2: Compiler, L: seq<byte>, Ls: seq<Value>, R: seq<byte>, Rs: seq<Value>)
    requires c1 == Compiler(c.instructions + L, c.constants + Ls)
    requires c2 == Compiler(c1.instructions + R, c1.constants + Rs)
    ensures Compiler(c2.instructions + Make(OpAdd, []), c2.constants) ==
            Compiler(c.instructions + (L + R + Make(OpAdd, [])), c.constants + (Ls + Rs))
  {
    AppendAssoc3(c.instructions, L, R, Make(OpAdd, []));
    AppendAssoc(c.constants, Ls, Rs);
  }

  /** An addition tree compiles without error to its post-order code, and its
      literals are appended to the pool in order, each one as a new entry. */
  lemma {:induction false} CompileAdditionTree(c: Compiler, e: Expression, strict: bool)
    requires AdditionTree(e)
    ensures CompilesTo(c, e, strict, ExpectedCode(e, |c.constants|), Literals(e))
  {
    CompileToTreeState(c, e, strict);
    TreeStateAppends(c, e);
  }

  lemma {:induction false} AppendAssoc<T>(a: seq<T>, b: seq<T>, c: seq<T>)
    ensures (a + b) + c == a + (b + c)
  {
  }

  lemma {:induction false} AppendAssoc3<T>(a: seq<T>, b: seq<T>, c: seq<T>, d: seq<T>)
    ensures ((a + b) + c) + d == a + ((b + c) + d)
  {
  }

  /** One step of the walk over an infix expression whose operands compile
      without error. */
  lemma {:induction false} CompileInfixUnfold(c: Compiler, l: Expression, op: string, r: Expression, strict: bool,
                           c1: Compiler, c2: Compiler)
    requires CompileExpression(c, l, strict) == Compiled(c1, None)
    requires CompileExpression(c1, r, strict) == Compiled(c2, None)
    ensures CompileExpression(c, InfixExpression(l, op, r), strict) ==
            if op == "+" then Compiled(Emit(c2, OpAdd, []).0, None)
            else Compiled(c2, Some(UnknownOperator(op)))
  {
  }

  /** A literal goes to a new pool entry and is loaded by one `OpConstant`. */
  lemma {:induction false} CompileLiteral(c: Compiler, v: Int64, strict: bool)
    ensures CompileExpression(c, IntegerLiteral(v), strict) ==
            Compiled(Compiler(c.instructions + Make(OpConstant, [|c.constants|]), c.constants + [Integer(v)]), None)
  {
    var added := AddConstant(c, Integer(v));
    assert added == (Compiler(c.instructions, c.constants + [Integer(v)]), |c.constants|);
    EmitAppends(added.0, OpConstant, [|c.constants|]);
  }

  /** Compiling the statements `ss` from `c` succeeds and appends exactly
      `code` to the stream and `lits` to the pool. */
  predicate StatementsCompileTo(c: Compiler, ss: seq<Statement>, strict: bool, code: seq<byte>, lits: seq<Value>) {
    CompileStatements(c, ss, strict) == Compiled(Compiler(c.instructions + code, c.constants + lits), None)
  }

  /** The state a sequence of statements leaves behind when every expression
      in it is an addition tree: each statement's `TreeState` in turn. */
  function ProgramState(c: Compiler, ss: seq<Statement>): Compiler
    decreases |ss|
  {
    if |ss| == 0 then c
    else
      var e := if ss[0].ExpressionStatement? then ss[0].expression else OtherExpression;
      ProgramState(TreeState(c, e), ss[1..])
  }

  /** An addition program compiles without error, to the state `ProgramState` describes. */
  lemma {:induction false} CompileToProgramState(c: Compiler, ss: seq<Statement>, strict: bool)
    requires AdditionProgram(ss)
    ensures CompileStatements(c, ss, strict) == Compiled(ProgramState(c, ss), None)
    decreases |ss|
  {
    if |ss| > 0 {
      TailOfAdditionProgram(ss);
      CompileToTreeState(c, ss[0].expression, strict);
      CompileToProgramState(TreeState(c, ss[0].expression), ss[1..], strict);
    }
  }

  /** `ProgramState` appends the expected code of each statement to the
      stream and its literals to the pool. */
  lemma {:induction false} ProgramStateAppends(c: Compiler, ss: seq<Statement>)
    ensures ProgramState(c, ss).instructions == c.instructions + ExpectedProgramCode(ss, |c.constants|)
    ensures ProgramState(c, ss).constants == c.constants + ProgramLiterals(ss)
    decreases |ss|
  {
    if |ss| == 0 {
      assert c.instructions + [] == c.instructions && c.constants + [] == c.constants;
    } else {
      var e := if ss[0].ExpressionStatement? then ss[0].expression else OtherExpression;
      TreeStateAppends(c, e);
      var c1 := TreeState(c, e);
      ProgramStateAppends(c1, ss[1..]);
      AppendAssoc(c.instructions, ExpectedCode(e, |c.constants|), ExpectedProgramCode(ss[1..], |c1.constants|));
      AppendAssoc(c.constants, Literals(e), ProgramLiterals(ss[1..]));
    }
  }

  /** The statements of an addition program compile, in order and without
      error, to the concatenation of their expected code. */
  lemma {:induction false} CompileAdditionProgram(c: Compiler, ss: seq<Statement>, strict: bool)
    requires AdditionProgram(ss)
    ensures StatementsCompileTo(c, ss, strict, ExpectedProgramCode(ss, |c.constants|), ProgramLiterals(ss))
  {
    CompileToProgramState(c, ss, strict);
    ProgramStateAppends(c, ss);
  }

  /** The first statement of a non-empty addition program is an expression
      statement over an addition tree, and the rest is an addition program. */
  lemma {:induction false} TailOfAdditionProgram(ss: seq<Statement>)
    requires |ss| > 0 && AdditionProgram(ss)
    ensures ss[0].ExpressionStatement? && AdditionTree(ss[0].expression)
    ensures AdditionProgram(ss[1..])
  {
    forall i | 0 <= i < |ss| - 1 ensures ss[1..][i].ExpressionStatement? && AdditionTree(ss[1..][i].expression) {
      assert ss[1..][i] == ss[i + 1];
    }
  }

  /** An operator other than `+` is reported only after both operands have
      been compiled without error: the state on error is the state after the
      right operand. The operands are any the compiler in use accepts: with
      `strict`, addition trees; as written, any `PlusOnly` expression, whose
      kinds without a case are skipped. */
  lemma {:induction false} UnknownOperatorAfterOperands(c: Compiler, l: Expression, op: string, r: Expression, strict: bool)
    requires op != "+"
    requires if strict then AdditionTree(l) && AdditionTree(r) else PlusOnly(l) && PlusOnly(r)
    ensures var left := CompileExpression(c, l, strict);
            var right := CompileExpression(left.compiler, r, strict);
            && left.err.None? && right.err.None?
            && CompileExpression(c, InfixExpression(l, op, r), strict) == Compiled(right.compiler, Some("unknown operator " + op))
  {
    var c1 := CompileExpression(c, l, strict).compiler;
    if strict {
      CheckedAcceptsAdditionTrees(c, l);
      CheckedAcceptsAdditionTrees(c1, r);
    } else {
      AsWrittenAccepts(c, l);
      AsWrittenAccepts(c1, r);
    }
    var c2 := CompileExpression(c1, r, strict).compiler;
    CompileInfixUnfold(c, l, op, r, strict, c1, c2);
  }

  /** Compiling `ss + more` compiles `ss` first; if that fails its result is
      the result of the whole and `more` is never compiled, otherwise `more`
      is compiled from where `ss` left off. */
  lemma {:induction false} StatementsInOrder(c: Compiler, ss: seq<Statement>, more: seq<Statement>, strict: bool)
    ensures CompileStatements(c, ss + more, strict) ==
            var r := CompileStatements(c, ss, strict);
            if r.err.Some? then r else CompileStatements(r.compiler, more, strict)
    decreases |ss|
  {
    if |ss| == 0 {
      assert ss + more == more;
    } else {
      assert (ss + more)[0] == ss[0];
      assert (ss + more)[1..] == ss[1..] + more;
      var first := CompileStatement(c, ss[0], strict);
      if first.err.None? {
        StatementsInOrder(first.compiler, ss[1..], more, strict);
      }
    }
  }

  /** The statements the compiler has a case for, in order. */
  function HandledStatements(ss: seq<Statement>): (r: seq<Statement>)
    ensures |r| <= |ss|
    ensures forall i :: 0 <= i < |r| ==> r[i].ExpressionStatement?
    decreases |ss|
  {
    if |ss| == 0 then []
    else if ss[0].OtherStatement? then HandledStatements(ss[1..])
    else [ss[0]] + HandledStatements(ss[1..])
  }

  /** The compiler as written ignores the statement kinds it has no case
      for: dropping them changes neither the code, the pool nor the error. */
  lemma {:induction false} UnhandledStatementsIgnored(c: Compiler, ss: seq<Statement>)
    ensures CompileStatements(c, ss, false) == CompileStatements(c, HandledStatements(ss), false)
    decreases |ss|
  {
    if |ss| > 0 {
      if ss[0].OtherStatement? {
        UnhandledStatementsIgnored(c, ss[1..]);
      } else {
        var kept := [ss[0]] + HandledStatements(ss[1..]);
        assert kept[0] == ss[0] && kept[1..] == HandledStatements(ss[1..]);
        var first := CompileStatement(c, ss[0], false);
        if first.err.None? {
          UnhandledStatementsIgnored(first.compiler, ss[1..]);
        }
      }
    }
  }

  /** The stricter compiler accepts an expression exactly when it is an
      addition tree. */
  lemma {:induction false} CheckedAcceptsAdditionTrees(c: Compiler, e: Expression)
    ensures CompileExpression(c, e, true).err.None? <==> AdditionTree(e)
    decreases e
  {
    match e
    case IntegerLiteral(_) =>
    case OtherExpression =>
    case InfixExpression(l, op, r) =>
      CheckedAcceptsAdditionTrees(c, l);
      var left := CompileExpression(c, l, true);
      if left.err.None? {
        CheckedAcceptsAdditionTrees(left.compiler, r);
      }
  }

  /** The compiler as written accepts an expression exactly when its every
      operator is `+`: an operator other than `+` is rejected wherever it
      sits, while kinds without a case never cause an error. */
  lemma {:induction false} AsWrittenAccepts(c: Compiler, e: Expression)
    ensures CompileExpression(c, e, false).err.None? <==> PlusOnly(e)
    decreases e
  {
    match e
    case IntegerLiteral(_) =>
    case OtherExpression =>
    case InfixExpression(l, op, r) =>
      AsWrittenAccepts(c, l);
      var left := CompileExpression(c, l, false);
      if left.err.None? {
        AsWrittenAccepts(left.compiler, r);
      }
  }

  /** The compiler as written accepts a statement list exactly when every
      statement is `PlusOnlyStatement`. */
  lemma {:induction false} AsWrittenAcceptsStatements(c: Compiler, ss: seq<Statement>)
    ensures CompileStatements(c, ss, false).err.None? <==> forall i :: 0 <= i < |ss| ==> PlusOnlyStatement(ss[i])
    decreases |ss|
  {
    if |ss| > 0 {
      var first := CompileStatement(c, ss[0], false);
      if ss[0].ExpressionStatement? {
        AsWrittenAccepts(c, ss[0].expression);
      }
      if first.err.None? {
        AsWrittenAcceptsStatements(first.compiler, ss[1..]);
        assert forall i :: 0 < i < |ss| ==> ss[i] == ss[1..][i - 1];
      }
    }
  }

  /** For any node, the compiler as written reports an error exactly when an
      operator other than `+` occurs in it. */
  lemma {:induction false} AsWrittenAcceptsNode(c: Compiler, n: Node)
    ensures Compile(c, n).err.None? <==> PlusOnlyNode(n)
  {
    match n
    case ProgramNode(p) => AsWrittenAcceptsStatements(c, p.statements);
    case StatementNode(s) =>
      if s.ExpressionStatement? {
        AsWrittenAccepts(c, s.expression);
      }
    case ExpressionNode(e) => AsWrittenAccepts(c, e);
  }

  /** The stricter compiler accepts a program exactly when it is an addition
      program. */
  lemma {:induction false} CheckedAcceptsAdditionPrograms(c: Compiler, ss: seq<Statement>)
    ensures CompileStatements(c, ss, true).err.None? <==> AdditionProgram(ss)
    decreases |ss|
  {
    if |ss| > 0 {
      var first := CompileStatement(c, ss[0], true);
      var headOk := ss[0].ExpressionStatement? && AdditionTree(ss[0].expression);
      if ss[0].ExpressionStatement? {
        CheckedAcceptsAdditionTrees(c, ss[0].expression);
      }
      assert first.err.None? <==> headOk;
      AdditionProgramSplit(ss);
      if first.err.None? {
        CheckedAcceptsAdditionPrograms(first.compiler, ss[1..]);
      }
    }
  }

  /** A non-empty sequence is an addition program exactly when its first
      statement qualifies and the rest is one. */
  lemma {:induction false} AdditionProgramSplit(ss: seq<Statement>)
    requires |ss| > 0
    ensures AdditionProgram(ss) <==>
            (ss[0].ExpressionStatement? && AdditionTree(ss[0].expression) && AdditionProgram(ss[1..]))
  {
    if AdditionProgram(ss) {
      TailOfAdditionProgram(ss);
    }
    if ss[0].ExpressionStatement? && AdditionTree(ss[0].expression) && AdditionProgram(ss[1..]) {
      forall i | 0 <= i < |ss| ensures ss[i].ExpressionStatement? && AdditionTree(ss[i].expression) {
        if i > 0 {
          assert ss[i] == ss[1..][i - 1];
        }
      }
    }
  }

  // ---------------------------------------------------------------------
  // Well-formedness of the emitted stream

  /** The stream decodes completely and every constant load names an entry of
      the pool. */
  predicate Consistent(c: Compiler) {
    && DecodeFrom(c.instructions, 0).Some?
    && IndicesValid(DecodeFrom(c.instructions, 0).value, |c.constants|)
  }

  lemma {:induction false} EmitConstantConsistent(c: Compiler, index: nat)
    requires Consistent(c) && index < |c.constants|
    ensures Consistent(Emit(c, OpConstant, [index]).0)
  {
    EmitAppends(c, OpConstant, [index]);
    DecodeMakeConstant(index);
    DecodeAppend(c.instructions, Make(OpConstant, [index]), 0);
    assert index % 65536 <= index;
  }

  lemma {:induction false} EmitAddConsistent(c: Compiler)
    requires Consistent(c)
    ensures Consistent(Emit(c, OpAdd, []).0)
  {
    EmitAppends(c, OpAdd, []);
    DecodeMakeAdd();
    DecodeAppend(c.instructions, Make(OpAdd, []), 0);
  }

  lemma {:induction false} CompileExpressionConsistent(c: Compiler, e: Expression, strict: bool)
    requires Consistent(c)
    ensures Consistent(CompileExpression(c, e, strict).compiler)
    decreases e
  {
    match e
    case OtherExpression =>
    case IntegerLiteral(v) =>
      var (c1, index) := AddConstant(c, Integer(v));
      EmitConstantConsistent(c1, index);
    case InfixExpression(l, op, r) =>
      CompileExpressionConsistent(c, l, strict);
      var left := CompileExpression(c, l, strict);
      if left.err.None? {
        CompileExpressionConsistent(left.compiler, r, strict);
        var right := CompileExpression(left.compiler, r, strict);
        if right.err.None? && op == "+" {
          EmitAddConsistent(right.compiler);
        }
      }
  }

  lemma {:induction false} CompileStatementConsistent(c: Compiler, s: Statement, strict: bool)
    requires Consistent(c)
    ensures Consistent(CompileStatement(c, s, strict).compiler)
  {
    if s.ExpressionStatement? {
      CompileExpressionConsistent(c, s.expression, strict);
    }
  }

  lemma {:induction false} CompileStatementsConsistent(c: Compiler, ss: seq<Statement>, strict: bool)
    requires Consistent(c)
    ensures Consistent(CompileStatements(c, ss, strict).compiler)
    decreases |ss|
  {
    if |ss| > 0 {
      CompileStatementConsistent(c, ss[0], strict);
      var first := CompileStatement(c, ss[0], strict);
      if first.err.None? {
        CompileStatementsConsistent(first.compiler, ss[1..], strict);
      }
    }
  }

  /** Whatever node it is given, and whether or not it fails, the compiler
      leaves a stream that decodes completely and in which every
      `OpConstant` operand is smaller than the final pool length. */
  lemma {:induction false} CompileIndicesValid(n: Node)
    ensures var c := Compile(New(), n).compiler;
            && DecodeFrom(c.instructions, 0).Some?
            && IndicesValid(DecodeFrom(c.instructions, 0).value, |c.constants|)
  {
    assert DecodeFrom(New().instructions, 0) == Some([]);
    match n
    case ProgramNode(p) => CompileStatementsConsistent(New(), p.statements, false);
    case StatementNode(s) => CompileStatementConsistent(New(), s, false);
    case ExpressionNode(e) => CompileExpressionConsistent(New(), e, false);
  }

  /** The instructions the expected code of `e` decodes to: a constant load
      per literal, whose operand is its pool index modulo 2^16, and an `Add`
      per infix node, in post-order. */
  function TreeInstructions(e: Expression, k: nat): seq<Instruction> {
    match e
    case IntegerLiteral(_) => [Constant(k % 65536)]
    case InfixExpression(l, _, r) =>
      TreeInstructions(l, k) + TreeInstructions(r, k + |Literals(l)|) + [Add]
    case OtherExpression => []
  }

  /** The instructions of each expression statement, in order. */
  function ProgramInstructions(ss: seq<Statement>, k: nat): seq<Instruction> {
    if |ss| == 0 then []
    else
      var e := if ss[0].ExpressionStatement? then ss[0].expression else OtherExpression;
      TreeInstructions(e, k) + ProgramInstructions(ss[1..], k + |Literals(e)|)
  }

  /** The expected code of any expression decodes completely. */
  lemma {:induction false} DecodeExpectedCode(e: Expression, k: nat)
    ensures DecodeFrom(ExpectedCode(e, k), 0) == Some(TreeInstructions(e, k))
    decreases e
  {
    match e
    case IntegerLiteral(_) =>
      DecodeMakeConstant(k);
    case InfixExpression(l, _, r) =>
      var cl, cr := ExpectedCode(l, k), ExpectedCode(r, k + |Literals(l)|);
      DecodeExpectedCode(l, k);
      DecodeExpectedCode(r, k + |Literals(l)|);
      DecodeAppend(cl, cr, 0);
      DecodeMakeAdd();
      DecodeAppend(cl + cr, Make(OpAdd, []), 0);
    case OtherExpression =>
      assert DecodeFrom([], 0) == Some([]);
  }

  /** The constant loads of an expression's code stay below the pool length
      after its literals are added. */
  lemma {:induction false} TreeIndicesValid(e: Expression, k: nat)
    ensures IndicesValid(TreeInstructions(e, k), k + |Literals(e)|)
    decreases e
  {
    match e
    case IntegerLiteral(_) =>
      assert k % 65536 <= k;
    case InfixExpression(l, _, r) =>
      var n := k + |Literals(l)| + |Literals(r)|;
      TreeIndicesValid(l, k);
      TreeIndicesValid(r, k + |Literals(l)|);
      IndicesAppend(TreeInstructions(l, k), TreeInstructions(r, k + |Literals(l)|), k + |Literals(l)|, n);
      IndicesAppend(TreeInstructions(l, k) + TreeInstructions(r, k + |Literals(l)|), [Add], n, n);
    case OtherExpression =>
  }

  /** While every index fits in an operand, the constant loads of an
      expression's code name no entry below `k`, where its literals start. */
  lemma {:induction false} TreeIndicesFrom(e: Expression, k: nat)
    requires k + |Literals(e)| <= 65536
    ensures IndicesFrom(TreeInstructions(e, k), k)
    decreases e
  {
    match e
    case IntegerLiteral(_) =>
      assert k % 65536 == k;
    case InfixExpression(l, _, r) =>
      TreeIndicesFrom(l, k);
      TreeIndicesFrom(r, k + |Literals(l)|);
      IndicesFromAppend(TreeInstructions(l, k), TreeInstructions(r, k + |Literals(l)|), k, k + |Literals(l)|);
      IndicesFromAppend(TreeInstructions(l, k) + TreeInstructions(r, k + |Literals(l)|), [Add], k, k);
    case OtherExpression =>
  }

  /** An addition tree's instructions push exactly one value and never find
      fewer than two values at an `Add`. */
  lemma {:induction false} TreeStackDepth(e: Expression, k: nat, depth: nat)
    requires AdditionTree(e)
    ensures StackDepth(TreeInstructions(e, k), depth) == Some(depth + 1)
    decreases e
  {
    match e
    case IntegerLiteral(_) =>
      assert StackDepth([], depth + 1) == Some(depth + 1);
    case InfixExpression(l, _, r) =>
      var il, ir := TreeInstructions(l, k), TreeInstructions(r, k + |Literals(l)|);
      TreeStackDepth(l, k, depth);
      TreeStackDepth(r, k + |Literals(l)|, depth + 1);
      StackDepthAppend(il, ir, depth);
      StackDepthAppend(il + ir, [Add], depth);
      assert StackDepth([Add], depth + 2) == StackDepth([], depth + 1);
  }

  /** The expected code of an addition tree decodes completely, loads only
      entries below `k + |Literals(e)|`, never pops an empty slot, and leaves
      exactly one more value on the stack. While every index fits in an
      operand, it loads only the tree's own entries, from `k` on. */
  lemma {:induction false} ExpectedCodeShape(e: Expression, k: nat, depth: nat)
    requires AdditionTree(e)
    ensures WellShaped(ExpectedCode(e, k), TreeInstructions(e, k), k + |Literals(e)|, depth, depth + 1)
    ensures k + |Literals(e)| <= 65536 ==> IndicesFrom(TreeInstructions(e, k), k)
  {
    DecodeExpectedCode(e, k);
    TreeIndicesValid(e, k);
    if k + |Literals(e)| <= 65536 {
      TreeIndicesFrom(e, k);
    }
    TreeStackDepth(e, k, depth);
  }

  /** The expected code of a sequence of statements decodes completely. */
  lemma {:induction false} DecodeExpectedProgram(ss: seq<Statement>, k: nat)
    ensures DecodeFrom(ExpectedProgramCode(ss, k), 0) == Some(ProgramInstructions(ss, k))
    decreases |ss|
  {
    if |ss| == 0 {
      assert DecodeFrom([], 0) == Some([]);
    } else {
      var e := if ss[0].ExpressionStatement? then ss[0].expression else OtherExpression;
      var k' := k + |Literals(e)|;
      DecodeExpectedCode(e, k);
      DecodeExpectedProgram(ss[1..], k');
      DecodeConcat(ExpectedCode(e, k), ExpectedProgramCode(ss[1..], k'), TreeInstructions(e, k), ProgramInstructions(ss[1..], k'));
    }
  }

  lemma {:induction false} ProgramIndicesValid(ss: seq<Statement>, k: nat)
    ensures IndicesValid(ProgramInstructions(ss, k), k + |ProgramLiterals(ss)|)
    decreases |ss|
  {
    if |ss| > 0 {
      var e := if ss[0].ExpressionStatement? then ss[0].expression else OtherExpression;
      TreeIndicesValid(e, k);
      ProgramIndicesValid(ss[1..], k + |Literals(e)|);
      IndicesAppend(TreeInstructions(e, k), ProgramInstructions(ss[1..], k + |Literals(e)|),
                    k + |Literals(e)|, k + |ProgramLiterals(ss)|);
    }
  }

  /** While every index fits in an operand, the constant loads of a
      program's code name no entry below `k`. */
  lemma {:induction false} ProgramIndicesFrom(ss: seq<Statement>, k: nat)
    requires k + |ProgramLiterals(ss)| <= 65536
    ensures IndicesFrom(ProgramInstructions(ss, k), k)
    decreases |ss|
  {
    if |ss| > 0 {
      var e := if ss[0].ExpressionStatement? then ss[0].expression else OtherExpression;
      assert ProgramLiterals(ss) == Literals(e) + ProgramLiterals(ss[1..]);
      TreeIndicesFrom(e, k);
      ProgramIndicesFrom(ss[1..], k + |Literals(e)|);
      IndicesFromAppend(TreeInstructions(e, k), ProgramInstructions(ss[1..], k + |Literals(e)|), k, k + |Literals(e)|);
    }
  }

  /** An addition program's instructions push one value per statement. */
  lemma {:induction false} ProgramStackDepth(ss: seq<Statement>, k: nat, depth: nat)
    requires AdditionProgram(ss)
    ensures StackDepth(ProgramInstructions(ss, k), depth) == Some(depth + |ss|)
    decreases |ss|
  {
    if |ss| > 0 {
      TailOfAdditionProgram(ss);
      var e := ss[0].expression;
      TreeStackDepth(e, k, depth);
      ProgramStackDepth(ss[1..], k + |Literals(e)|, depth + 1);
      StackDepthAppend(TreeInstructions(e, k), ProgramInstructions(ss[1..], k + |Literals(e)|), depth);
    }
  }

  /** The expected code of an addition program decodes completely, loads only
      entries below `k + |ProgramLiterals(ss)|`, and leaves one value per
      statement. While every index fits in an operand, it loads only the
      program's own entries, from `k` on. */
  lemma {:induction false} ExpectedProgramShape(ss: seq<Statement>, k: nat, depth: nat)
    requires AdditionProgram(ss)
    ensures WellShaped(ExpectedProgramCode(ss, k), ProgramInstructions(ss, k), k + |ProgramLiterals(ss)|, depth, depth + |ss|)
    ensures k + |ProgramLiterals(ss)| <= 65536 ==> IndicesFrom(ProgramInstructions(ss, k), k)
  {
    DecodeExpectedProgram(ss, k);
    ProgramIndicesValid(ss, k);
    if k + |ProgramLiterals(ss)| <= 65536 {
      ProgramIndicesFrom(ss, k);
    }
    ProgramStackDepth(ss, k, depth);
  }
}

=== FILE: end_to_end.dfy ===
/** The whole pipeline: compile a node with a fresh compiler, load the
    bytecode into a fresh machine, run it and read the top of the stack. */
module EndToEnd {
  import opened Wrappers
  import opened Object
  import opened Code
  import opened Ast
  import opened Compiler
  import Vm
  import Pipeline

  /** What a compile-and-run reports: the compiler's error, the machine's
      error, or the value left on top of the stack (None when it is empty). */
  datatype Reply = CompileError(message: string) | RunError(message: string) | Top(top: Option<Value>)

  /** Loads `b` into a fresh machine, runs it and reads the top of the stack. */
  function RunBytecode(b: Bytecode): (r: Reply)
    requires Vm.Runnable(Vm.New(b))
    ensures !r.CompileError?
    ensures r.RunError? ==> r.message == Vm.StackOverflow
  {
    var vm := Vm.New(b);
    var out := Vm.Exec(vm, DecodeFrom(vm.instructions, 0).value);
    if out.err.Some? then RunError(out.err.value) else Top(Vm.StackTop(out.vm))
  }

  /** The compiler as written reports an error, or hands the machine code
      that is `Vm.Runnable`: the whole stream decodes, every index is valid
      and no addition pops an empty slot. This asks more than Go's loop needs
      to avoid a panic, since a push that overflows ends the run before any
      later defect is reached. */
  predicate NoDefect(n: Node) {
    var compiled := Compile(New(), n);
    compiled.err.Some? || Vm.Runnable(Vm.New(BytecodeOf(compiled.compiler)))
  }

  /** Compile with the compiler as written, then run. */
  function Interpret(n: Node): (r: Reply)
    requires NoDefect(n)
    ensures r.CompileError? <==> Compile(New(), n).err.Some?
    ensures r.CompileError? ==> Some(r.message) == Compile(New(), n).err
    ensures r.RunError? ==> r.message == Vm.StackOverflow
  {
    var compiled := Compile(New(), n);
    if compiled.err.Some? then CompileError(compiled.err.value)
    else RunBytecode(BytecodeOf(compiled.compiler))
  }

  /** The caller's sequence: compile with a fresh compiler, hand the bytecode
      to a fresh machine, run the fetch loop, and read the top of the stack
      unless compiling or running reported an error. */
  method CompileAndRun(n: Node) returns (r: Reply)
    requires NoDefect(n)
    ensures r == Interpret(n)
    ensures n.ProgramNode? && AdditionProgram(n.program.statements) && |ProgramLiterals(n.program.statements)| <= 65536 ==>
            r == ExpectedReply(n.program.statements)
  {
    if n.ProgramNode? && AdditionProgram(n.program.statements) && |ProgramLiterals(n.program.statements)| <= 65536 {
      InterpretAdditionProgram(n.program.statements);
    }
    var compiled := Compile(New(), n);
    if compiled.err.Some? {
      return CompileError(compiled.err.value);
    }
    var machine := Vm.New(BytecodeOf(compiled.compiler));
    var out := Vm.Run(machine);
    if out.err.Some? {
      r := RunError(out.err.value);
    } else {
      r := Top(Vm.StackTop(out.vm));
    }
  }

  /** The reply an addition program should get: the value of its last
      statement on top of the stack when its peak need fits, a stack overflow
      otherwise. */
  function ExpectedReply(ss: seq<Statement>): Reply
    requires AdditionProgram(ss)
  {
    var values := ProgramValues(ss);
    if ProgramNeed(ss) <= Vm.StackSize then Top(if |values| == 0 then None else Some(values[|values| - 1]))
    else RunError(Vm.StackOverflow)
  }

  /** A fresh compiler turns an addition program into its expected code and
      its literals, whichever way unsupported kinds are treated. */
  lemma {:induction false} CompileFreshProgram(ss: seq<Statement>, strict: bool)
    requires AdditionProgram(ss)
    ensures CompileNode(New(), ProgramNode(Program(ss)), strict) ==
            Compiled(Compiler(ExpectedProgramCode(ss, 0), ProgramLiterals(ss)), None)
  {
    CompileAdditionProgram(New(), ss, strict);
    assert [] + ExpectedProgramCode(ss, 0) == ExpectedProgramCode(ss, 0);
    assert [] + ProgramLiterals(ss) == ProgramLiterals(ss);
  }

  /** The expected code of an addition program, loaded with its literals as
      the pool, runs without a panic. */
  lemma {:induction false} ProgramRunnable(ss: seq<Statement>)
    requires AdditionProgram(ss)
    ensures Vm.Runnable(Vm.New(Bytecode(ExpectedProgramCode(ss, 0), ProgramLiterals(ss))))
  {
    ExpectedProgramShape(ss, 0, 0);
  }

  /** Running the expected code of an addition program leaves the value of
      the last statement on top, or overflows exactly when the program's
      peak need exceeds the stack. */
  lemma {:induction false} RunAdditionProgram(ss: seq<Statement>)
    requires AdditionProgram(ss) && |ProgramLiterals(ss)| <= 65536
    ensures var b := Bytecode(ExpectedProgramCode(ss, 0), ProgramLiterals(ss));
            Vm.Runnable(Vm.New(b)) && RunBytecode(b) == ExpectedReply(ss)
  {
    var pool := ProgramLiterals(ss);
    var b := Bytecode(ExpectedProgramCode(ss, 0), pool);
    var vm := Vm.New(b);
    var instrs := ProgramInstructions(ss, 0);
    ExpectedProgramShape(ss, 0, 0);
    assert Vm.Holds(vm, []);
    Vm.ExecAgrees(vm, [], instrs);
    assert pool[0..|pool|] == pool;
    Pipeline.ValueRunProgram(pool, [], ss, 0);
    assert [] + ProgramValues(ss) == ProgramValues(ss);
  }

  /** Compiling and running an addition program gives the expected reply. */
  lemma {:induction false} InterpretAdditionProgram(ss: seq<Statement>)
    requires AdditionProgram(ss) && |ProgramLiterals(ss)| <= 65536
    ensures NoDefect(ProgramNode(Program(ss)))
    ensures Interpret(ProgramNode(Program(ss))) == ExpectedReply(ss)
  {
    CompileFreshProgram(ss, false);
    RunAdditionProgram(ss);
  }

  /** Compiling `a + b` and running it leaves the wrap-around sum on top of
      the stack, which is `a + b` itself when that fits in an `int64`. */
  lemma {:induction false} InterpretSum(a: Int64, b: Int64)
    ensures var n := ProgramNode(Program([ExpressionStatement(InfixExpression(IntegerLiteral(a), "+", IntegerLiteral(b)))]));
            && NoDefect(n)
            && Interpret(n) == Top(Some(Integer(WrapAdd(a, b))))
            && (InInt64(a + b) ==> Interpret(n) == Top(Some(Integer(a + b))))
  {
    var e := InfixExpression(IntegerLiteral(a), "+", IntegerLiteral(b));
    var ss := [ExpressionStatement(e)];
    assert AdditionProgram(ss);
    assert ss[1..] == [];
    assert Literals(e) == [Integer(a)] + [Integer(b)];
    assert ProgramLiterals(ss) == Literals(e) + ProgramLiterals(ss[1..]);
    assert Eval(e) == WrapAdd(a, b);
    assert ProgramValues(ss) == [Integer(Eval(e))] + ProgramValues(ss[1..]);
    assert Need(e) == 2 && ProgramNeed(ss[1..]) == 0;
    assert ProgramNeed(ss) == 2;
    InterpretAdditionProgram(ss);
  }

  /** The compiler test's case: `1 + 2` compiles to two pool entries and
      the code `OpConstant 0`, `OpConstant 1`, `OpAdd`, and runs to 3. */
  lemma {:induction false} OnePlusTwo()
    ensures var n := ProgramNode(Program([ExpressionStatement(InfixExpression(IntegerLiteral(1), "+", IntegerLiteral(2)))]));
            && Compile(New(), n) ==
               Compiled(Compiler(Make(OpConstant, [0]) + Make(OpConstant, [1]) + Make(OpAdd, []), [Integer(1), Integer(2)]), None)
            && NoDefect(n)
            && Interpret(n) == Top(Some(Integer(3)))
  {
    var e := InfixExpression(IntegerLiteral(1), "+", IntegerLiteral(2));
    var ss := [ExpressionStatement(e)];
    assert AdditionProgram(ss);
    assert ss[1..] == [];
    CompileFreshProgram(ss, false);
    assert ExpectedProgramCode(ss, 0) == ExpectedCode(e, 0) + [];
    InterpretSum(1, 2);
  }

  /** `1 - 2`: both literals are compiled into the pool and the stream before
      the operator is rejected. */
  lemma {:induction false} OneMinusTwo()
    ensures var n := ProgramNode(Program([ExpressionStatement(InfixExpression(IntegerLiteral(1), "-", IntegerLiteral(2)))]));
            && Compile(New(), n) ==
               Compiled(Compiler(Make(OpConstant, [0]) + Make(OpConstant, [1]), [Integer(1), Integer(2)]), Some("unknown operator -"))
            && NoDefect(n)
            && Interpret(n) == CompileError("unknown operator -")
  {
    var l, r := IntegerLiteral(1), IntegerLiteral(2);
    var e := InfixExpression(l, "-", r);
    var c1 := Compiler(Make(OpConstant, [0]), [Integer(1)]);
    var c2 := Compiler(Make(OpConstant, [0]) + Make(OpConstant, [1]), [Integer(1), Integer(2)]);
    CompileLiteral(New(), 1, false);
    assert [] + Make(OpConstant, [0]) == Make(OpConstant, [0]);
    assert CompileExpression(New(), l, false) == Compiled(c1, None);
    CompileLiteral(c1, 2, false);
    assert CompileExpression(c1, r, false) == Compiled(c2, None);
    CompileInfixUnfold(New(), l, "-", r, false, c1, c2);
    assert UnknownOperator("-") == "unknown operator -";
    assert CompileExpression(New(), e, false) == Compiled(c2, Some("unknown operator -"));
  }

  /** Compiling `1 + 1` adds two pool entries holding the same value: the
      pool is never deduplicated. */
  lemma {:induction false} OnePlusOne()
    ensures var n := ProgramNode(Program([ExpressionStatement(InfixExpression(IntegerLiteral(1), "+", IntegerLiteral(1)))]));
            Compile(New(), n).compiler.constants == [Integer(1), Integer(1)]
  {
    var ss := [ExpressionStatement(InfixExpression(IntegerLiteral(1), "+", IntegerLiteral(1)))];
    assert AdditionProgram(ss);
    assert ss[1..] == [];
    CompileFreshProgram(ss, false);
  }

  // ---------------------------------------------------------------------
  // Expression kinds without a case

  /** The compiler as written skips an operand it has no case for, so
      `OpAdd` finds a single value: an addition whose left operand is such a
      kind (a prefix expression, say) compiles without error to code on which
      the machine would pop an empty stack. The stricter compiler rejects it. */
  lemma {:induction false} SkippedOperandPanics()
    ensures var n := ProgramNode(Program([ExpressionStatement(InfixExpression(OtherExpression, "+", IntegerLiteral(2)))]));
            && Compile(New(), n) == Compiled(Compiler(Make(OpConstant, [0]) + Make(OpAdd, []), [Integer(2)]), None)
            && !NoDefect(n)
            && CompileChecked(New(), n) == Compiled(New(), Some(UnsupportedExpression))
  {
    var e := InfixExpression(OtherExpression, "+", IntegerLiteral(2));
    var ss := [ExpressionStatement(e)];
    assert ss[1..] == [];
    var c1 := Compiler(Make(OpConstant, [0]), [Integer(2)]);
    CompileLiteral(New(), 2, false);
    assert [] + Make(OpConstant, [0]) == Make(OpConstant, [0]);
    CompileInfixUnfold(New(), OtherExpression, "+", IntegerLiteral(2), false, New(), c1);
    EmitAppends(c1, OpAdd, []);
    var code := Make(OpConstant, [0]) + Make(OpAdd, []);
    DecodeMakeConstant(0);
    DecodeMakeAdd();
    DecodeConcat(Make(OpConstant, [0]), Make(OpAdd, []), [Constant(0)], [Add]);
    var instrs := [Constant(0)] + [Add];
    assert instrs[1..] == [Add] && [Add][1..] == [];
    assert StackDepth(instrs, 0) == None;
  }

  /** The stricter compiler never hands the machine code it would panic on,
      for an expression on its own. */
  lemma {:induction false} ExpressionNeverPanics(e: Expression)
    ensures var compiled := CompileExpression(New(), e, true);
            compiled.err.Some? || Vm.Runnable(Vm.New(BytecodeOf(compiled.compiler)))
  {
    CheckedAcceptsAdditionTrees(New(), e);
    if AdditionTree(e) {
      CompileAdditionTree(New(), e, true);
      ExpectedCodeShape(e, 0, 0);
      assert [] + ExpectedCode(e, 0) == ExpectedCode(e, 0);
      assert [] + Literals(e) == Literals(e);
    }
  }

  /** Whatever node it is given, the stricter compiler either reports an
      error or hands the machine code it can run without a panic. */
  lemma {:induction false} CheckedNeverPanics(n: Node)
    ensures var compiled := CompileChecked(New(), n);
            compiled.err.Some? || Vm.Runnable(Vm.New(BytecodeOf(compiled.compiler)))
  {
    match n
    case ProgramNode(p) =>
      CheckedAcceptsAdditionPrograms(New(), p.statements);
      if AdditionProgram(p.statements) {
        CompileFreshProgram(p.statements, true);
        ProgramRunnable(p.statements);
      }
    case StatementNode(s) =>
      if s.ExpressionStatement? {
        ExpressionNeverPanics(s.expression);
      }
    case ExpressionNode(e) =>
      ExpressionNeverPanics(e);
  }

  /** Compile with the stricter compiler, then run; defined for every node. */
  function InterpretChecked(n: Node): (r: Reply)
    ensures r.CompileError? <==> CompileChecked(New(), n).err.Some?
    ensures r.CompileError? ==> Some(r.message) == CompileChecked(New(), n).err
    ensures r.RunError? ==> r.message == Vm.StackOverflow
  {
    var compiled := CompileChecked(New(), n);
    if compiled.err.Some? then CompileError(compiled.err.value)
    else
      CheckedNeverPanics(n);
      RunBytecode(BytecodeOf(compiled.compiler))
  }

  /** The stricter pipeline rejects exactly the programs that are not
      addition programs, and gives every addition program its expected reply. */
  lemma {:induction false} InterpretCheckedProgram(ss: seq<Statement>)
    ensures InterpretChecked(ProgramNode(Program(ss))).CompileError? <==> !AdditionProgram(ss)
    ensures AdditionProgram(ss) && |ProgramLiterals(ss)| <= 65536 ==>
            InterpretChecked(ProgramNode(Program(ss))) == ExpectedReply(ss)
  {
    CheckedAcceptsAdditionPrograms(New(), ss);
    if AdditionProgram(ss) {
      CompileFreshProgram(ss, true);
      if |ProgramLiterals(ss)| <= 65536 {
        RunAdditionProgram(ss);
      }
    }
  }

  /** On addition programs the two compilers produce the same bytecode, so
      the two pipelines give the same reply. */
  lemma {:induction false} CheckedAgreesOnAdditionPrograms(ss: seq<Statement>)
    requires AdditionProgram(ss)
    ensures Compile(New(), ProgramNode(Program(ss))) == CompileChecked(New(), ProgramNode(Program(ss)))
    ensures NoDefect(ProgramNode(Program(ss)))
    ensures Interpret(ProgramNode(Program(ss))) == InterpretChecked(ProgramNode(Program(ss)))
  {
    CompileFreshProgram(ss, false);
    CompileFreshProgram(ss, true);
    ProgramRunnable(ss);
  }
}

=== FILE: object.dfy ===
/** Run-time values. */
module Object {

  const TwoTo63: int := 0x8000_0000_0000_0000
  const TwoTo64: int := 0x1_0000_0000_0000_0000

  /** The range of Go's `int64`. */
  predicate InInt64(x: int) {
    -TwoTo63 <= x < TwoTo63
  }

  /** Go's `int64`. */
  type Int64 = x: int | InInt64(x)

  /** Go's `int64` addition, which wraps around modulo 2^64. */
  function WrapAdd(a: Int64, b: Int64): (r: Int64)
    ensures (a + b - r) % TwoTo64 == 0
    ensures InInt64(a + b) ==> r == a + b
  {
    assert InInt64(a) && InInt64(b);
    var s := a + b;
    if s >= TwoTo63 then s - TwoTo64
    else if s < -TwoTo63 then s + TwoTo64
    else s
  }

  /** A value on the stack or in the constant pool. Integers are the only
      kind of object the compiler and the machine handle. */
  datatype Value = Integer(value: Int64)
}

=== FILE: pipeline.dfy ===
/** Compiling addition trees and programs and running the result: the
    machine ends with each statement's value on the stack, the last one on
    top, or reports a stack overflow when the program needs more slots than
    the stack has. */
module Pipeline {
  import opened Wrappers
  import opened Object
  import opened Code
  import opened Ast
  import opened Compiler
  import Vm

  /** The pool holds `lits`, in order, from index `k` on. */
  predicate PoolHolds(pool: seq<Value>, k: nat, lits: seq<Value>) {
    k + |lits| <= |pool| && pool[k..k + |lits|] == lits
  }

  lemma {:induction false} PoolSplit(pool: seq<Value>, k: nat, a: seq<Value>, b: seq<Value>)
    requires PoolHolds(pool, k, a + b)
    ensures PoolHolds(pool, k, a) && PoolHolds(pool, k + |a|, b)
  {
    var n, m := |a|, |b|;
    assert pool[k..k + n] == pool[k..k + n + m][..n];
    assert pool[k + n..k + n + m] == pool[k..k + n + m][n..];
  }

  /** An addition after two values replaces them by their wrap-around sum. */
  lemma {:induction false} ValueRunAdd(pool: seq<Value>, values: seq<Value>, a: Int64, b: Int64)
    ensures Vm.ValueRun(pool, values + [Integer(a), Integer(b)], [Add]) == Success(values + [Integer(WrapAdd(a, b))])
  {
    var two := values + [Integer(a), Integer(b)];
    assert two[..|values|] == values;
    assert [Add][1..] == [];
  }

  /** What the value semantics should give for code that pushes `pushed`
      and needs `need` slots above the values already on the stack. */
  function Pushes(values: seq<Value>, need: nat, pushed: seq<Value>): Result<seq<Value>, string> {
    if |values| + need <= Vm.StackSize then Success(values + pushed) else Failure(Vm.StackOverflow)
  }

  lemma {:induction false} NeedPositive(e: Expression)
    requires AdditionTree(e)
    ensures 1 <= Need(e)
  {
    match e
    case IntegerLiteral(_) =>
    case InfixExpression(l, _, r) => NeedPositive(l);
  }

  /** Code pushing `a`, then code pushing `b`, then an addition, pushes the
      wrap-around sum; stated over arbitrary code. */
  lemma {:induction false} ValueRunInfix(pool: seq<Value>, values: seq<Value>, il: seq<Instruction>, ir: seq<Instruction>,
                                         a: Int64, b: Int64, nl: nat, nr: nat)
    requires 1 <= nr
    requires Vm.ValueRun(pool, values, il) == Pushes(values, nl, [Integer(a)])
    requires Vm.ValueRun(pool, values + [Integer(a)], ir) == Pushes(values + [Integer(a)], nr, [Integer(b)])
    ensures Vm.ValueRun(pool, values, il + ir + [Add]) ==
            Pushes(values, if nl >= 1 + nr then nl else 1 + nr, [Integer(WrapAdd(a, b))])
  {
    Vm.ValueRunAppend(pool, values, il, ir);
    Vm.ValueRunAppend(pool, values, il + ir, [Add]);
    if |values| + nl <= Vm.StackSize && |values| + 1 + nr <= Vm.StackSize {
      assert values + [Integer(a)] + [Integer(b)] == values + [Integer(a), Integer(b)];
      ValueRunAdd(pool, values, a, b);
    }
  }

  /** An addition node: the left operand's code, the right operand's, then
      an addition, given what each operand's code does. */
  lemma {:induction false} ValueRunTreeInfix(pool: seq<Value>, values: seq<Value>, l: Expression, r: Expression, k: nat)
    requires AdditionTree(l) && AdditionTree(r)
    requires Vm.ValueRun(pool, values, TreeInstructions(l, k)) == Pushes(values, Need(l), [Integer(Eval(l))])
    requires Vm.ValueRun(pool, values + [Integer(Eval(l))], TreeInstructions(r, k + |Literals(l)|)) ==
             Pushes(values + [Integer(Eval(l))], Need(r), [Integer(Eval(r))])
    ensures Vm.ValueRun(pool, values, TreeInstructions(InfixExpression(l, "+", r), k)) ==
            Pushes(values, Need(InfixExpression(l, "+", r)), [Integer(Eval(InfixExpression(l, "+", r)))])
  {
    NeedPositive(r);
    ValueRunInfix(pool, values, TreeInstructions(l, k), TreeInstructions(r, k + |Literals(l)|), Eval(l), Eval(r), Need(l), Need(r));
  }

  /** The code of an addition tree, under the value semantics, appends the
      tree's value when its peak need fits on the stack and fails with a
      stack overflow otherwise. */
  lemma {:induction false} ValueRunTree(pool: seq<Value>, values: seq<Value>, e: Expression, k: nat)
    requires AdditionTree(e) && PoolHolds(pool, k, Literals(e)) && k + |Literals(e)| <= 65536
    ensures Vm.ValueRun(pool, values, TreeInstructions(e, k)) == Pushes(values, Need(e), [Integer(Eval(e))])
    decreases e
  {
    match e
    case IntegerLiteral(v) =>
      assert TreeInstructions(e, k) == [Constant(k)];
      assert pool[k] == pool[k..k + 1][0];
      assert [Constant(k)][1..] == [];
    case InfixExpression(l, op, r) =>
      PoolSplit(pool, k, Literals(l), Literals(r));
      ValueRunTree(pool, values, l, k);
      ValueRunTree(pool, values + [Integer(Eval(l))], r, k + |Literals(l)|);
      ValueRunTreeInfix(pool, values, l, r, k);
  }

  /** Code pushing `v`, then code pushing `vs`, pushes `[v] + vs`; stated
      over arbitrary code. */
  lemma {:induction false} ValueRunThen(pool: seq<Value>, values: seq<Value>, ie: seq<Instruction>, irest: seq<Instruction>,
                                        v: Value, vs: seq<Value>, ne: nat, nrest: nat)
    requires Vm.ValueRun(pool, values, ie) == Pushes(values, ne, [v])
    requires |values| + ne <= Vm.StackSize ==> Vm.ValueRun(pool, values + [v], irest) == Pushes(values + [v], nrest, vs)
    ensures Vm.ValueRun(pool, values, ie + irest) == Pushes(values, if ne >= 1 + nrest then ne else 1 + nrest, [v] + vs)
  {
    Vm.ValueRunAppend(pool, values, ie, irest);
    assert values + [v] + vs == values + ([v] + vs);
  }

  /** A non-empty addition program: its first statement's code, then the
      rest, given what the rest does from one value higher. */
  lemma {:induction false} ValueRunProgramCons(pool: seq<Value>, values: seq<Value>, ss: seq<Statement>, k: nat)
    requires |ss| > 0 && AdditionProgram(ss)
    requires ss[0].ExpressionStatement? && AdditionTree(ss[0].expression) && AdditionProgram(ss[1..])
    requires PoolHolds(pool, k, Literals(ss[0].expression)) && k + |Literals(ss[0].expression)| <= 65536
    requires var e := ss[0].expression;
             |values| + Need(e) <= Vm.StackSize ==>
             Vm.ValueRun(pool, values + [Integer(Eval(e))], ProgramInstructions(ss[1..], k + |Literals(e)|)) ==
             Pushes(values + [Integer(Eval(e))], ProgramNeed(ss[1..]), ProgramValues(ss[1..]))
    ensures Vm.ValueRun(pool, values, ProgramInstructions(ss, k)) == Pushes(values, ProgramNeed(ss), ProgramValues(ss))
  {
    var e := ss[0].expression;
    ValueRunTree(pool, values, e, k);
    ValueRunThen(pool, values, TreeInstructions(e, k), ProgramInstructions(ss[1..], k + |Literals(e)|),
                 Integer(Eval(e)), ProgramValues(ss[1..]), Need(e), ProgramNeed(ss[1..]));
  }

  /** The code of an addition program, under the value semantics, appends
      the value of every statement in order when the program's peak need
      fits on the stack and fails with a stack overflow otherwise. */
  lemma {:induction false} ValueRunProgram(pool: seq<Value>, values: seq<Value>, ss: seq<Statement>, k: nat)
    requires AdditionProgram(ss) && PoolHolds(pool, k, ProgramLiterals(ss)) && k + |ProgramLiterals(ss)| <= 65536
    requires |values| <= Vm.StackSize
    ensures Vm.ValueRun(pool, values, ProgramInstructions(ss, k)) == Pushes(values, ProgramNeed(ss), ProgramValues(ss))
    decreases |ss|
  {
    if |ss| == 0 {
      assert values + [] == values;
    } else {
      TailOfAdditionProgram(ss);
      var e := ss[0].expression;
      PoolSplit(pool, k, Literals(e), ProgramLiterals(ss[1..]));
      if |values| + Need(e) <= Vm.StackSize {
        NeedPositive(e);
        ValueRunProgram(pool, values + [Integer(Eval(e))], ss[1..], k + |Literals(e)|);
      }
      ValueRunProgramCons(pool, values, ss, k);
    }
  }
}

=== FILE: vm.dfy ===
/** The stack machine: a fixed-capacity stack with an explicit stack pointer,
    and a fetch-decode-execute loop over the instruction stream. */
module Vm {
  import opened Wrappers
  import opened Object
  import opened Code
  import Compiler

  const StackSize: nat := 2048

  const StackOverflow: string := "STACK OVERFLOW"

  /** The machine's state. A slot holds `None` where the stack has never
      been written (Go's nil); popping leaves the popped value in its slot. */
  datatype VM = VM(constants: seq<Value>, instructions: seq<byte>, stack: seq<Option<Value>>, stackPointer: nat)

  /** The stack keeps its capacity, the pointer stays within it, and every
      slot below the pointer holds a value. */
  predicate Valid(vm: VM) {
    && |vm.stack| == StackSize
    && vm.stackPointer <= StackSize
    && forall i :: 0 <= i < vm.stackPointer ==> vm.stack[i].Some?
  }

  function New(b: Compiler.Bytecode): (vm: VM)
    ensures Valid(vm) && vm.stackPointer == 0
    ensures vm.constants == b.constants && vm.instructions == b.instructions
    ensures forall i :: 0 <= i < |vm.stack| ==> vm.stack[i].None?
  {
    VM(b.constants, b.instructions, seq(StackSize, _ => None), 0)
  }

  /** The value on top of the stack, or None when the stack is empty. */
  function StackTop(vm: VM): (r: Option<Value>)
    requires vm.stackPointer <= |vm.stack|
    ensures Valid(vm) ==> (r.None? <==> vm.stackPointer == 0)
  {
    if vm.stackPointer == 0 then None else vm.stack[vm.stackPointer - 1]
  }

  /** `w` is `vm` with `o` stored in the slot at the pointer and the pointer
      moved past it; no other slot and neither the pool nor the stream differ. */
  predicate PushedOnto(vm: VM, w: VM, o: Value) {
    && w.constants == vm.constants
    && w.instructions == vm.instructions
    && w.stackPointer == vm.stackPointer + 1
    && |w.stack| == |vm.stack|
    && vm.stackPointer < |vm.stack|
    && w.stack[vm.stackPointer] == Some(o)
    && forall i :: 0 <= i < |vm.stack| && i != vm.stackPointer ==> w.stack[i] == vm.stack[i]
  }

  /** A push at capacity fails and leaves the machine as it was. */
  function Push(vm: VM, o: Value): (r: Result<VM, string>)
    requires |vm.stack| == StackSize
    ensures r.Failure? <==> vm.stackPointer >= StackSize
    ensures r.Failure? ==> r.error == StackOverflow
    ensures r.Success? ==> PushedOnto(vm, r.value, o)
  {
    if vm.stackPointer >= StackSize then Failure(StackOverflow)
    else
      Success(vm.(stack := vm.stack[vm.stackPointer := Some(o)], stackPointer := vm.stackPointer + 1))
  }

  /** Pop hands back what `StackTop` shows and lowers the pointer by one. */
  function Pop(vm: VM): (r: (VM, Option<Value>))
    requires 0 < vm.stackPointer <= |vm.stack|
    ensures r.1 == StackTop(vm)
    ensures r.0.stackPointer == vm.stackPointer - 1
    ensures r.0.stack == vm.stack && r.0.constants == vm.constants && r.0.instructions == vm.instructions
    ensures Valid(vm) ==> Valid(r.0) && r.1.Some?
  {
    (vm.(stackPointer := vm.stackPointer - 1), vm.stack[vm.stackPointer - 1])
  }

  /** Pushing keeps the invariant. */
  lemma {:induction false} PushValid(vm: VM, o: Value)
    requires Valid(vm) && vm.stackPointer < StackSize
    ensures Valid(Push(vm, o).value)
  {
    var w := Push(vm, o).value;
    forall i | 0 <= i < w.stackPointer ensures w.stack[i].Some? {
      if i != vm.stackPointer {
        assert w.stack[i] == vm.stack[i];
      }
    }
  }

  /** Popping right after a push returns the pushed value, and the machine
      is back where it was except for the slot the push wrote. */
  lemma {:induction false} PopAfterPush(vm: VM, o: Value)
    requires Valid(vm) && vm.stackPointer < StackSize
    ensures Pop(Push(vm, o).value) == (vm.(stack := vm.stack[vm.stackPointer := Some(o)]), Some(o))
  {
  }

  /** Everything a step needs so as not to panic: a constant load names a
      pool entry and an addition finds two values on the stack. */
  predicate CanStep(vm: VM, instr: Instruction) {
    && Valid(vm)
    && match instr
       case Constant(i) => i < |vm.constants|
       case Add => vm.stackPointer >= 2
       case Unknown(_) => true
  }

  /** One pass of the fetch loop's switch on an instruction already decoded.
      `OpAdd` discards the error of its push, as the machine does. */
  function Step(vm: VM, instr: Instruction): (r: Result<VM, string>)
    requires CanStep(vm, instr)
    ensures r.Success? ==> Valid(r.value) && r.value.constants == vm.constants && r.value.instructions == vm.instructions
    ensures r.Failure? <==> instr.Constant? && vm.stackPointer >= StackSize
    ensures r.Failure? ==> r.error == StackOverflow
    ensures instr.Constant? && r.Success? ==> PushedOnto(vm, r.value, vm.constants[instr.index])
    ensures instr.Add? ==> r.Success? && Added(vm, r.value)
    ensures instr.Unknown? ==> r == Success(vm)
  {
    match instr
    case Constant(i) =>
      var pushed := Push(vm, vm.constants[i]);
      if pushed.Success? then PushValid(vm, vm.constants[i]); pushed else pushed
    case Add =>
      var (vm1, right) := Pop(vm);
      var (vm2, left) := Pop(vm1);
      var sum := Integer(WrapAdd(left.value.value, right.value.value));
      var pushed := Push(vm2, sum);
      PushValid(vm2, sum);
      Success(if pushed.Success? then pushed.value else vm2)
    case Unknown(_) => Success(vm)
  }

  /** `w` is `vm` with its top two values replaced by their wrap-around sum:
      one value fewer, the slots below untouched. */
  predicate Added(vm: VM, w: VM)
    requires Valid(vm) && vm.stackPointer >= 2
  {
    var sp := vm.stackPointer;
    && w.stackPointer == sp - 1
    && |w.stack| == |vm.stack|
    && w.stack[sp - 2] == Some(Integer(WrapAdd(vm.stack[sp - 2].value.value, vm.stack[sp - 1].value.value)))
    && w.stack[..sp - 2] == vm.stack[..sp - 2]
  }

  /** The outcome of running: the final state and the error that stopped
      the run, if any. */
  datatype Outcome = Outcome(vm: VM, err: Option<string>)

  /** No instruction of `instrs` has a defect that would make Go panic if the
      loop reached it: every index is valid and no addition pops an empty
      slot. */
  predicate Runs(vm: VM, instrs: seq<Instruction>) {
    && Valid(vm)
    && IndicesValid(instrs, |vm.constants|)
    && StackDepth(instrs, vm.stackPointer).Some?
  }

  /** Runs decoded instructions in order and stops at the first failed push,
      returning the state at that point. */
  function Exec(vm: VM, instrs: seq<Instruction>): (r: Outcome)
    requires Runs(vm, instrs)
    ensures Valid(r.vm) && r.vm.constants == vm.constants && r.vm.instructions == vm.instructions
    ensures r.err.None? ==> StackDepth(instrs, vm.stackPointer) == Some(r.vm.stackPointer)
    ensures r.err.Some? ==> r.err == Some(StackOverflow)
    decreases |instrs|
  {
    if |instrs| == 0 then Outcome(vm, None)
    else
      match Step(vm, instrs[0])
      case Failure(e) => Outcome(vm, Some(e))
      case Success(next) =>
        Exec(next, instrs[1..])
  }

  /** The whole stream decodes and `Runs` from the start. Go panics only on
      a defect the loop reaches; this also excludes streams whose defect lies
      after a push that overflows, on which Go returns a stack overflow. */
  predicate Runnable(vm: VM) {
    && DecodeFrom(vm.instructions, 0).Some?
    && Runs(vm, DecodeFrom(vm.instructions, 0).value)
  }

  /** The fetch-decode-execute loop over the byte stream: `OpConstant` reads
      its two-byte operand at `ip + 1` and moves past it, every other byte
      moves the pointer by one, and the first error ends the run. */
  method Run(vm: VM) returns (out: Outcome)
    requires Runnable(vm)
    ensures out == Exec(vm, DecodeFrom(vm.instructions, 0).value)
    ensures StackTop(out.vm) == None <==> out.vm.stackPointer == 0
  {
    var ins := vm.instructions;
    var ip := 0;
    var cur := vm;
    while ip < |ins|
      invariant ip <= |ins|
      invariant cur.instructions == ins && cur.constants == vm.constants
      invariant DecodeFrom(ins, ip).Some? && Runs(cur, DecodeFrom(ins, ip).value)
      invariant Exec(cur, DecodeFrom(ins, ip).value) == Exec(vm, DecodeFrom(ins, 0).value)
      decreases |ins| - ip
    {
      var rest := DecodeFrom(ins, ip).value;
      var op := ins[ip];
      var instr;
      if op == OpConstant {
        instr := Constant(ReadUint16(ins, ip + 1));
        ip := ip + 2;
      } else if op == OpAdd {
        instr := Add;
      } else {
        instr := Unknown(op);
      }
      ip := ip + 1;
      assert rest == [instr] + DecodeFrom(ins, ip).value;
      assert rest[0] == instr && rest[1..] == DecodeFrom(ins, ip).value;
      var stepped := Step(cur, instr);
      if stepped.Failure? {
        return Outcome(cur, Some(stepped.error));
      }
      cur := stepped.value;
    }
    assert DecodeFrom(ins, ip).value == [];
    out := Outcome(cur, None);
  }

  /** Running `a + b` runs `a` first; a failure there is the outcome of the
      whole, otherwise `b` runs from where `a` stopped. */
  lemma {:induction false} ExecAppend(vm: VM, a: seq<Instruction>, b: seq<Instruction>)
    requires Runs(vm, a) && IndicesValid(b, |vm.constants|)
    requires StackDepth(b, StackDepth(a, vm.stackPointer).value).Some?
    ensures Runs(vm, a + b)
    ensures Exec(vm, a + b) == (var o := Exec(vm, a); if o.err.Some? then o else Exec(o.vm, b))
    decreases |a|
  {
    StackDepthAppend(a, b, vm.stackPointer);
    IndicesAppend(a, b, |vm.constants|, |vm.constants|);
    if |a| == 0 {
      assert a + b == b;
    } else {
      assert (a + b)[0] == a[0] && (a + b)[1..] == a[1..] + b;
      var stepped := Step(vm, a[0]);
      if stepped.Success? {
        ExecAppend(stepped.value, a[1..], b);
      }
    }
  }

  /** An addition as the last instruction: it cannot fail, and it replaces
      the top two values by their sum. */
  lemma {:induction false} ExecAdd(vm: VM)
    requires Valid(vm) && vm.stackPointer >= 2
    ensures Runs(vm, [Add])
    ensures Exec(vm, [Add]).err.None? && Added(vm, Exec(vm, [Add]).vm)
  {
    assert [Add][1..] == [];
  }

  // ---------------------------------------------------------------------
  // The same run seen only through the values on the stack

  /** The stack of `vm` holds exactly `values`, bottom first. */
  predicate Holds(vm: VM, values: seq<Value>) {
    && Valid(vm)
    && vm.stackPointer == |values|
    && forall i :: 0 <= i < |values| ==> vm.stack[i] == Some(values[i])
  }

  /** Reported by the value semantics where the machine itself would fail
      outright: an addition with fewer than two values on the stack, or a
      constant load naming no pool entry. */
  const Malformed: string := "MALFORMED CODE"

  /** A reference semantics on a list of values: a constant load appends the
      pool entry unless the list is already at capacity, an addition replaces
      the last two values by their wrap-around sum, other opcodes do nothing. */
  function ValueRun(pool: seq<Value>, values: seq<Value>, instrs: seq<Instruction>): Result<seq<Value>, string>
    decreases |instrs|
  {
    if |instrs| == 0 then Success(values)
    else
      match instrs[0]
      case Constant(i) =>
        if i >= |pool| then Failure(Malformed)
        else if |values| >= StackSize then Failure(StackOverflow)
        else ValueRun(pool, values + [pool[i]], instrs[1..])
      case Add =>
        var n := |values|;
        if n < 2 then Failure(Malformed)
        else
          var sum := Integer(WrapAdd(values[n - 2].value, values[n - 1].value));
          ValueRun(pool, values[..n - 2] + [sum], instrs[1..])
      case Unknown(_) => ValueRun(pool, values, instrs[1..])
  }

  lemma {:induction false} HoldsPush(vm: VM, w: VM, values: seq<Value>, o: Value)
    requires Holds(vm, values) && Valid(w) && PushedOnto(vm, w, o)
    ensures Holds(w, values + [o])
  {
    forall i | 0 <= i < |values| + 1 ensures w.stack[i] == Some((values + [o])[i]) {
      if i < |values| {
        assert w.stack[i] == vm.stack[i];
      }
    }
  }

  lemma {:induction false} HoldsAdd(vm: VM, w: VM, values: seq<Value>)
    requires Holds(vm, values) && |values| >= 2 && Valid(w) && Added(vm, w)
    ensures var n := |values|;
            Holds(w, values[..n - 2] + [Integer(WrapAdd(values[n - 2].value, values[n - 1].value))])
  {
    var n := |values|;
    var after := values[..n - 2] + [Integer(WrapAdd(values[n - 2].value, values[n - 1].value))];
    forall i | 0 <= i < n - 1 ensures w.stack[i] == Some(after[i]) {
      if i < n - 2 {
        assert w.stack[i] == w.stack[..n - 2][i] == vm.stack[..n - 2][i];
      }
    }
  }

  /** The machine agrees with the value semantics: from a stack holding
      `values`, the run fails exactly when the value semantics fails, and
      otherwise ends with a stack holding the values it computes. */
  lemma {:induction false} ExecAgrees(vm: VM, values: seq<Value>, instrs: seq<Instruction>)
    requires Runs(vm, instrs) && Holds(vm, values)
    ensures ValueRun(vm.constants, values, instrs).Success? <==> Exec(vm, instrs).err.None?
    ensures ValueRun(vm.constants, values, instrs).Success? ==>
            Holds(Exec(vm, instrs).vm, ValueRun(vm.constants, values, instrs).value)
    ensures ValueRun(vm.constants, values, instrs).Failure? ==>
            Some(ValueRun(vm.constants, values, instrs).error) == Exec(vm, instrs).err
    decreases |instrs|
  {
    if |instrs| > 0 {
      var instr := instrs[0];
      var stepped := Step(vm, instr);
      if stepped.Success? {
        var next := stepped.value;
        match instr
        case Constant(i) =>
          HoldsPush(vm, next, values, vm.constants[i]);
          ExecAgrees(next, values + [vm.constants[i]], instrs[1..]);
        case Add =>
          var n := |values|;
          HoldsAdd(vm, next, values);
          ExecAgrees(next, values[..n - 2] + [Integer(WrapAdd(values[n - 2].value, values[n - 1].value))], instrs[1..]);
        case Unknown(_) =>
          ExecAgrees(next, values, instrs[1..]);
      }
    }
  }

  /** The value semantics of `a + b` runs `a`, then `b` from where `a` stopped. */
  lemma {:induction false} ValueRunAppend(pool: seq<Value>, values: seq<Value>, a: seq<Instruction>, b: seq<Instruction>)
    ensures ValueRun(pool, values, a + b) ==
            match ValueRun(pool, values, a)
            case Failure(err) => Failure(err)
            case Success(mid) => ValueRun(pool, mid, b)
    decreases |a|
  {
    if |a| == 0 {
      assert a + b == b;
    } else {
      assert (a + b)[0] == a[0] && (a + b)[1..] == a[1..] + b;
      match a[0]
      case Constant(i) =>
        if i < |pool| && |values| < StackSize {
          ValueRunAppend(pool, values + [pool[i]], a[1..], b);
        }
      case Add =>
        var n := |values|;
        if n >= 2 {
          ValueRunAppend(pool, values[..n - 2] + [Integer(WrapAdd(values[n - 2].value, values[n - 1].value))], a[1..], b);
        }
      case Unknown(_) =>
        ValueRunAppend(pool, values, a[1..], b);
    }
  }
}

=== FILE: wrappers.dfy ===
/** Option and Result, shared by the compiler and the virtual machine. */
module Wrappers {

  /** A value that may be absent: Go's `nil` object or a missing error. */
  datatype Option<+T> = None | Some(value: T)

  /** Either a value or an error message. */
  datatype Result<+T, +E> = Success(value: T) | Failure(error: E)
}
